=== FILE: README.md ===
# hair-egonomie rules engine, in Dafny

This project models the rules engine behind the hair-egonomie learning front
end. It has five parts:

- **Navigation scoring** (`navigationAlgorithm.js`). Each navigation item gets
  an additive relevance score from the user's behaviour record. The items are
  ranked by a stable sort in descending score order. At most two of them are
  recommended, each with a reason chosen by a first-match cascade.
- **Behaviour tracker** (the `useUserState` hook). Hover, click, view and the
  one-second tick are modelled as pure transitions over a tracker record, with
  the clock passed in as `now`. The hook's effect that derives `hesitationLevel`
  and `mentalState` becomes a pure classifier, re-applied after every
  transition that changes one of its inputs.
- **Journey generator** (`generateJourney`). It turns four questionnaire
  answers into three things: an ordered list of content modules, a pacing
  preset, and a description.
- **Journey flow** (`JourneyFlow`). It expands the modules into alternating
  content and question steps, closed by a final quiz. It maps module types to
  content ids. It advances the step index and accumulates quiz statistics.
- **Navigation panel** (`IntelligentNavigation`). It holds the fixed
  three-item catalog, the visibility filter, the recommendation marks and the
  click handlers.

Modules, one per file:

| module | file | role |
|---|---|---|
| `Options` | options.dfy | optional values |
| `Dict` | dict.dfy | a JavaScript plain object as an association list |
| `Decimal` | decimal.dfy | the decimal rendering of indices in step ids |
| `Cascade` | cascade.dfy | first-match rule tables |
| `StableSort` | stable_sort.dfy | stable descending insertion sort |
| `UserTracking` | user_tracking.dfy | the tracker and the classifier |
| `Navigation` | navigation.dfy | score, ranking, recommendations, reasons |
| `JourneyGenerator` | journey_generator.dfy | the journey generator |
| `JourneyFlow` | journey_flow.dfy | steps, content ids, index and statistics |
| `IntelligentNavigation` | intelligent_navigation.dfy | the panel's non-rendering logic |
| `Scenario` | scenario.dfy | a hesitant newcomer is steered to discovery |

Modelling choices:

- **Plain objects.** `hoverTimes`, `preferences` and the pending hover starts
  are lists of key/value entries whose keys are distinct. `Get` of an absent
  key is 0. This mirrors the `obj[k] || 0` idiom, so "truthy" reads as
  `Get(...) != 0`.
- **Hover average.** The average hover time is compared with 1000, 2000 and
  3000 by cross-multiplication. `HesitationLevel` proves that this picks the
  same band as the real-valued division.
- **Sort stability.** Stability is stated per score value: the items with a
  given score appear in the same order before and after the sort.
- **Answers.** Each answer is `Option<string>`, where `None` stands for
  `undefined`.
- **Transition durations.** These are stored in tenths of a second: 0.8 s,
  0.4 s and 0.6 s become 8, 4 and 6.
- **Renamed fields.** `name` stands for an item's or module's `label` field.
  `kind` stands for its `type` field. `courseModule` stands for a step's
  `module` field.

Two behaviours of the code worth knowing:

- **Unknown `rythme`.** `rhythmConfig[rythme || 'auto']` falls back to `auto`
  only for a missing or empty answer. Any other unknown string spreads
  nothing, so the config has no pacing fields (`pacing == None`).
- **Preference score.** One more click adds exactly ten points only from one
  click upwards. The first click on a discovery item after thirty seconds
  also removes the eight-point freshness bonus, so the score rises by two
  (`FirstPreferenceCanCostFreshness`).

## Model

| member | source | states |
|---|---|---|
| Dict.Get | frontend/hair-egonomie/src/hooks/useUserState.js:84 | reading a key that was never written gives 0, the default the source supplies when a key is missing |
| Dict.Put | frontend/hair-egonomie/src/hooks/useUserState.js:82-85 | `{ ...obj, [k]: v }`: k now reads v, every other key reads as before, k joins the keys, and no key is ever held twice |
| Dict.Remove | frontend/hair-egonomie/src/hooks/useUserState.js:87 | `delete obj[k]`: k is gone, every other key reads as before, keys stay distinct |
| Dict.TotalPut | frontend/hair-egonomie/src/hooks/useUserState.js:41 | the sum of the values changes by exactly the new value minus the old one |
| Decimal.Show | frontend/hair-egonomie/src/components/JourneyFlow.jsx:22 | an index renders as at least one decimal digit, with no leading zero |
| Decimal.ParseShow | frontend/hair-egonomie/src/components/JourneyFlow.jsx:22 | reading the rendered digits back gives the index |
| Decimal.ShowInjective | frontend/hair-egonomie/src/components/JourneyFlow.jsx:33 | different indices render differently |
| Cascade.FirstMatch | frontend/hair-egonomie/src/utils/navigationAlgorithm.js:128-156 | the outcome of a rule table is that of the first rule that fires, with no earlier rule firing, or the fallback when none fires |
| StableSort.SortDesc | frontend/hair-egonomie/src/utils/navigationAlgorithm.js:103 | the stable sort by descending score: a permutation of its input, non-increasing in score, with the items of each score in their input order |
| StableSort.SortDescIdle | frontend/hair-egonomie/src/utils/navigationAlgorithm.js:103 | a list already in descending order comes back unchanged |
| StableSort.SortKeepsDistinct | frontend/hair-egonomie/src/utils/navigationAlgorithm.js:103 | sorting keeps distinct ids distinct |
| Navigation.Score | frontend/hair-egonomie/src/utils/navigationAlgorithm.js:10-93 | apart from the ten points per click, rules 2 to 8 add between -3 and 68 points |
| Navigation.PriorityOf | frontend/hair-egonomie/src/utils/navigationAlgorithm.js:98 | `high` exactly when the score is at least 20, `medium` exactly when it is from 10 to 19, `low` exactly when it is below 10 |
| Navigation.ScoreAll | frontend/hair-egonomie/src/utils/navigationAlgorithm.js:10-100 | one entry per item, in input order: the item itself unchanged, with its score and band added |
| Navigation.Reason | frontend/hair-egonomie/src/utils/navigationAlgorithm.js:125-157 | the `if` chain of `getRecommendationReason`; `ReasonIsFirstMatch` proves it equal to the first match of the rule table, and `ReasonPrecedence` states each reason's exact condition |
| Navigation.ReasonIsFirstMatch | frontend/hair-egonomie/src/utils/navigationAlgorithm.js:125-157 | the reason cascade equals the first match of its rule table, in the order preference, hesitant, focused, more than 30 s, discover, learn, practice, with the default last |
| Navigation.ReasonPrecedence | frontend/hair-egonomie/src/utils/navigationAlgorithm.js:128-156 | each of the first four reasons is given exactly when its own condition holds and no earlier one does; the last four are given exactly when none of those holds, and among them the item's type decides discover, learn or practice |
| Navigation.Qualifying | frontend/hair-egonomie/src/utils/navigationAlgorithm.js:107 | every kept item scores at least 15; on a ranked list the kept items are its leading items, followed by an item below 15 |
| Navigation.Recommend | frontend/hair-egonomie/src/utils/navigationAlgorithm.js:106-113 | at most two recommendations, the first qualifying items in ranked order, each with its id, label and reason |
| Navigation.CalculateNavigationOrder | frontend/hair-egonomie/src/utils/navigationAlgorithm.js:6-120 | the ranking is a permutation of the scored items and is non-increasing in score, with ties in input order; the recommendations are the leading ranked items scoring at least 15, at most two of them; the next item, if any, scores below 15 when fewer than two qualify; the mental state is passed through |
| Navigation.ShouldShowItem | frontend/hair-egonomie/src/utils/navigationAlgorithm.js:162-166 | every item is shown |
| Navigation.EmptyCatalog | frontend/hair-egonomie/src/utils/navigationAlgorithm.js:10-113 | no items give an empty ranking and no recommendation |
| Navigation.LeaderIsSoleQualifier | frontend/hair-egonomie/src/utils/navigationAlgorithm.js:106-108 | in a ranking where only the leader reaches 15, the leader is the only qualifier |
| Navigation.LeaderIsSoleRecommendation | frontend/hair-egonomie/src/utils/navigationAlgorithm.js:106-113 | such a ranking gives exactly one recommendation, for its leader |
| Navigation.ScoredInOrderStays | frontend/hair-egonomie/src/utils/navigationAlgorithm.js:103 | items whose scores already descend keep their order |
| Navigation.SoleQualifierIsSoleRecommendation | frontend/hair-egonomie/src/utils/navigationAlgorithm.js:103-113 | input already in descending score order, with only the first item reaching 15, keeps its order, and that item is the sole recommendation |
| Navigation.PreferenceRaisesScoreByTen | frontend/hair-egonomie/src/utils/navigationAlgorithm.js:14-62 | from one recorded click upwards, one more click adds exactly ten points to that item and changes no other item's score |
| Navigation.FirstPreferenceCanCostFreshness | frontend/hair-egonomie/src/utils/navigationAlgorithm.js:57-62 | the first click on a discovery item after thirty seconds adds only two points, because the freshness bonus is lost |
| Navigation.RecentClickCostsThree | frontend/hair-egonomie/src/utils/navigationAlgorithm.js:73-93 | an item in the click window scores exactly three less than with its id absent, when the last click is the same |
| UserTracking.HoveredCount | frontend/hair-egonomie/src/hooks/useUserState.js:42 | `Math.max(count, 1)`: the count itself, or 1 when there is no hovered item |
| UserTracking.AboveAverage | frontend/hair-egonomie/src/hooks/useUserState.js:42-47 | comparing the average with a threshold agrees with comparing the total with threshold × count |
| UserTracking.HesitationLevel | frontend/hair-egonomie/src/hooks/useUserState.js:41-47 | the level is 0 to 3 and is the band (over 1000, 2000 or 3000) of the real-valued average hover time |
| UserTracking.MentalStateOf | frontend/hair-egonomie/src/hooks/useUserState.js:49-60 | hesitation 2 or more always gives `hesitant`; `focused` needs more than three interactions within 30 s; `confident` needs at least one interaction within 60 s |
| UserTracking.MentalStateIsFirstMatch | frontend/hair-egonomie/src/hooks/useUserState.js:49-60 | the mental state is the first match of its five-row cascade, for every input |
| UserTracking.HesitationOutranksActivity | frontend/hair-egonomie/src/hooks/useUserState.js:52-57 | hesitation 2, no interaction and 5 s give `hesitant`; hesitation 1 with the same inputs gives `exploratory` |
| UserTracking.Classify | frontend/hair-egonomie/src/hooks/useUserState.js:37-66 | the level, from 0 to 3, is the band of the table's average hover time (total over the number of keys, at least 1); the mental state is the first match of the cascade on that level, the interaction count and the elapsed seconds, so a level of 2 or more always gives `hesitant` |
| UserTracking.Settle | frontend/hair-egonomie/src/hooks/useUserState.js:62-66 | afterwards the derived fields agree with their inputs, no other field changes, and an already settled state is left as it is |
| UserTracking.InitialState | frontend/hair-egonomie/src/hooks/useUserState.js:8-17 | `exploratory`, no time, no interactions, hovers, clicks or preferences, hesitation 0, no focus, and settled |
| UserTracking.Start | frontend/hair-egonomie/src/hooks/useUserState.js:8-21 | mounting gives the initial state, no pending hovers, and the given start instant |
| UserTracking.ElapsedSeconds | frontend/hair-egonomie/src/hooks/useUserState.js:28 | the whole seconds elapsed: 1000 × result ≤ now − start < 1000 × (result + 1) |
| UserTracking.ElapsedMonotone | frontend/hair-egonomie/src/hooks/useUserState.js:26-29 | under a clock that never runs backwards, `timeSpent` never decreases |
| UserTracking.Tick | frontend/hair-egonomie/src/hooks/useUserState.js:24-33 | the tick sets the elapsed seconds, re-classifies, and leaves the refs alone |
| UserTracking.HoverStart | frontend/hair-egonomie/src/hooks/useUserState.js:73-75 | the item's pending start becomes `now`, overwriting any earlier one; other pending starts and the state do not change |
| UserTracking.HoverEnd | frontend/hair-egonomie/src/hooks/useUserState.js:77-89 | with no pending start nothing changes; otherwise only the item's hover total grows, by `now - start`, the item joins the hovered keys (even for a zero-length hover) and no other key does, its pending start is cleared, and the state is re-classified |
| UserTracking.HoverEndAddsDuration | frontend/hair-egonomie/src/hooks/useUserState.js:79-86 | a completed hover raises the total hover time by exactly its duration |
| UserTracking.LastFour | frontend/hair-egonomie/src/hooks/useUserState.js:102 | `slice(-4)`: the last four entries, or all of them when there are fewer |
| UserTracking.Click | frontend/hair-egonomie/src/hooks/useUserState.js:91-111 | appends exactly one interaction stamped with the elapsed seconds; the click window becomes the last four earlier entries plus the item, so it holds one to five entries ending with the item; adds one click to that item only, which joins the preference keys; focuses the item; leaves hovers, time and refs unchanged; re-classifies. `RecordsClick` gathers this effect, so the click handlers state it too |
| UserTracking.View | frontend/hair-egonomie/src/hooks/useUserState.js:113-118 | only the focus changes, so a settled state stays settled |
| UserTracking.ApplyKeepsGood | frontend/hair-egonomie/src/hooks/useUserState.js:24-118 | every transition keeps the derived fields settled and every table free of repeated keys |
| UserTracking.RunKeepsGood | frontend/hair-egonomie/src/hooks/useUserState.js:24-118 | the invariant survives any sequence of events |
| UserTracking.RunFromStartIsGood | frontend/hair-egonomie/src/hooks/useUserState.js:8-118 | from mounting onwards the record satisfies the invariant, whatever events arrive |
| JourneyGenerator.ModuleOf | frontend/hair-egonomie/src/utils/journeyGenerator.js:10-16 | each catalog entry carries its own type |
| JourneyGenerator.WithoutResume | frontend/hair-egonomie/src/utils/journeyGenerator.js:62 | removes every summary and keeps every other module; a lone summary gives nothing and a lone other module is kept |
| JourneyGenerator.WithoutResumeKeepsOrder | frontend/hair-egonomie/src/utils/journeyGenerator.js:62 | the filter works piecewise over a concatenation, so the kept modules stay in their order |
| JourneyGenerator.WithoutResumeLength | frontend/hair-egonomie/src/utils/journeyGenerator.js:62 | the length drops by the number of summaries |
| JourneyGenerator.WithoutResumeKeepsNoRepeats | frontend/hair-egonomie/src/utils/journeyGenerator.js:62 | filtering keeps distinct modules distinct |
| JourneyGenerator.WithoutResumeIdle | frontend/hair-egonomie/src/utils/journeyGenerator.js:62 | with no summary present, filtering changes nothing |
| JourneyGenerator.AdjustForLevel | frontend/hair-egonomie/src/utils/journeyGenerator.js:59-68 | beginners get the summary filter of the list, in order; advanced learners without an exercise get one appended last, the rest unchanged; in every other case nothing changes |
| JourneyGenerator.InsertSecond | frontend/hair-egonomie/src/utils/journeyGenerator.js:72 | `splice(1, 0, m)`: m lands at index 1, after the first module and before the others in their order; into an empty list m goes alone |
| JourneyGenerator.TopUpForStyle | frontend/hair-egonomie/src/utils/journeyGenerator.js:70-79 | the style's module type is present afterwards; nothing changes when the style asks for nothing or its type is present; otherwise an example is inserted second, and a video or an exercise is put first; no other type's count changes |
| JourneyGenerator.PacingFor | frontend/hair-egonomie/src/utils/journeyGenerator.js:82-98 | a preset exists exactly for `doucement`, `rapidement` and `auto` |
| JourneyGenerator.Description | frontend/hair-egonomie/src/utils/journeyGenerator.js:113-122 | the fixed template: its head and its three separators stand at fixed offsets, with level, intention, rythme and style between them in that order |
| JourneyGenerator.GenerateJourney | frontend/hair-egonomie/src/utils/journeyGenerator.js:6-111 | the modules are catalog entries of the computed types; the config echoes the four answers and carries the preset looked up by the answered `rythme`, or by `auto` when it is missing or empty; the description is the template |
| JourneyGenerator.BaseSequence | frontend/hair-egonomie/src/utils/journeyGenerator.js:21-57 | the intention-by-style table (by level for an unknown intention); `BaseSequenceShape` proves every entry four distinct types with an exercise and a video, `NonBeginnerGetsBase` that it is the journey outside the beginner level, and `BeginnerModuleTypes` one entry end to end |
| JourneyGenerator.BaseSequenceShape | frontend/hair-egonomie/src/utils/journeyGenerator.js:21-57 | every base sequence has four distinct types including an exercise and a video, and includes an example when the style asks for examples |
| JourneyGenerator.LevelAndStyleGuarantees | frontend/hair-egonomie/src/utils/journeyGenerator.js:59-79 | a beginner's journey has no summary; an advanced learner's has an exercise; the styles `exemples`, `videos` and `pratique` guarantee an example, a video and an exercise |
| JourneyGenerator.TopUpIdle | frontend/hair-egonomie/src/utils/journeyGenerator.js:70-79 | when the types a style asks for are present, the top-up adds nothing |
| JourneyGenerator.NonBeginnerGetsBase | frontend/hair-egonomie/src/utils/journeyGenerator.js:21-79 | outside the beginner level the journey is exactly the base sequence, in its order |
| JourneyGenerator.BeginnerGetsFilteredBase | frontend/hair-egonomie/src/utils/journeyGenerator.js:21-79 | a beginner's journey is the base sequence without its summary, the other modules in base order |
| JourneyGenerator.JourneyShape | frontend/hair-egonomie/src/utils/journeyGenerator.js:21-79 | every journey has three or four distinct modules including an exercise and a video; it has three exactly when a beginner's base held a summary |
| JourneyGenerator.PacingTable | frontend/hair-egonomie/src/utils/journeyGenerator.js:82-108 | `doucement` gives (0.8 s, 2000, true); `rapidement` gives (0.4 s, 800, false); a missing, empty or `auto` answer gives (0.6 s, 1200, true); any other answer gives no pacing |
| JourneyGenerator.BeginnerModuleTypes | frontend/hair-egonomie/src/utils/journeyGenerator.js:21-79 | a beginner who wants to understand through examples gets article, example, video, exercise |
| JourneyGenerator.BeginnerUnderstandingByExamples | frontend/hair-egonomie/src/utils/journeyGenerator.js:6-110 | the same beginner, going slowly, gets those modules, no summary, and the slow preset |
| JourneyFlow.BuildJourneySteps | frontend/hair-egonomie/src/components/JourneyFlow.jsx:12-52 | no journey means no steps; n modules give 2n + 1 steps: step 2i is module i's content (`content_<type>_<i>`), step 2i + 1 is `question_<i>`, and the last is `final_quiz` with module index n |
| JourneyFlow.ContentStepIdsDiffer | frontend/hair-egonomie/src/components/JourneyFlow.jsx:22 | two `content_<type>_<i>` ids are equal only for the same index, since a type name holds no underscore |
| JourneyFlow.QuestionStepIdsDiffer | frontend/hair-egonomie/src/components/JourneyFlow.jsx:33 | two `question_<i>` ids are equal only for the same index |
| JourneyFlow.StepIdsDistinct | frontend/hair-egonomie/src/components/JourneyFlow.jsx:12-52 | no two steps of a built journey share an id |
| JourneyFlow.OnlyFinalStepIsLast | frontend/hair-egonomie/src/components/JourneyFlow.jsx:38-48 | a step is a question marked last exactly when it is the final step |
| JourneyFlow.ContentIdFor | frontend/hair-egonomie/src/components/JourneyFlow.jsx:110-125 | articles cycle through six ids by module index mod 6; exercises through three ids by index mod 3; an example maps to `article2`, a summary to `article3`, and a video, the only other module type, to `article1` |
| JourneyFlow.CurrentContentId | frontend/hair-egonomie/src/components/JourneyFlow.jsx:107-125 | exactly the content steps have a content id, and it is the id of the step's module type at the step's module index |
| JourneyFlow.StepContentIds | frontend/hair-egonomie/src/components/JourneyFlow.jsx:20-49 | along a built journey, step 2i shows the content id of module i's type at index i, and every other step shows none |
| JourneyFlow.ContentIdsRotate | frontend/hair-egonomie/src/components/JourneyFlow.jsx:113-118 | six consecutive articles get six different ids, and three consecutive exercises get three; the ids repeat with periods 6 and 3 |
| JourneyFlow.ContentNext | frontend/hair-egonomie/src/components/JourneyFlow.jsx:57-71 | completion is reported exactly at the last step, with the accumulated statistics; otherwise the index moves by one and stays within the steps |
| JourneyFlow.QuestionComplete | frontend/hair-egonomie/src/components/JourneyFlow.jsx:73-104 | a missing field counts as 0; a report changes the statistics only when its total is positive; the index moves by one within the steps; completion is reported exactly at the last step, with the earlier statistics plus this report |
| JourneyFlow.RunStaysInSteps | frontend/hair-egonomie/src/components/JourneyFlow.jsx:57-103 | over any sequence of handler calls, the index grows by at most one per call and never passes the last step |
| JourneyFlow.RunFinishesOnlyAtLastStep | frontend/hair-egonomie/src/components/JourneyFlow.jsx:57-103 | completion is only ever reported from the last step |
| JourneyFlow.RunKeepsTotalNonNegative | frontend/hair-egonomie/src/components/JourneyFlow.jsx:80-86 | the statistics only grow by a positive total, so a non-negative accumulated total stays non-negative over any handler calls |
| JourneyFlow.RunFromInitial | frontend/hair-egonomie/src/components/JourneyFlow.jsx:8-9 | from the initial index 0 and statistics 0/0, over any handler calls, the index stays within the steps, completion comes only from the last step, and the accumulated total is never negative |
| IntelligentNavigation.Catalog | frontend/hair-egonomie/src/components/IntelligentNavigation.jsx:12-43 | three items: `decouvrir` (discover, simple), `apprendre` (learn, medium), `exercer` (practice, advanced); none is flagged recommended |
| IntelligentNavigation.VisibleFrom | frontend/hair-egonomie/src/components/IntelligentNavigation.jsx:52-54 | filtering from any index keeps every item |
| IntelligentNavigation.VisibleItems | frontend/hair-egonomie/src/components/IntelligentNavigation.jsx:52-54 | the visible list is the ordered list |
| IntelligentNavigation.FindRecommendation | frontend/hair-egonomie/src/components/IntelligentNavigation.jsx:59-60 | nothing is found exactly when no recommendation has the id; otherwise the first recommendation with that id is found |
| IntelligentNavigation.MarkRecommendations | frontend/hair-egonomie/src/components/IntelligentNavigation.jsx:57-61 | one marked entry per visible item, in order, each marked from the recommendation list |
| IntelligentNavigation.RankedIdsDistinct | frontend/hair-egonomie/src/components/IntelligentNavigation.jsx:12-49 | the catalog's ranking never holds an id twice |
| IntelligentNavigation.Panel | frontend/hair-egonomie/src/components/IntelligentNavigation.jsx:46-61 | the panel lists the catalog in ranked order, and an item is marked recommended exactly when some recommendation names its id |
| IntelligentNavigation.MarkOfLeadingItem | frontend/hair-egonomie/src/components/IntelligentNavigation.jsx:52-60 | when the recommendations name the leading items of a list with distinct ids, `find` marks item j exactly when it is one of them, with its own recommendation's reason |
| IntelligentNavigation.ViewMarksLeadingItems | frontend/hair-egonomie/src/components/IntelligentNavigation.jsx:46-61 | item j of the panel is marked recommended exactly when j is below the number of recommendations, and then carries that recommendation's reason; at most two items are marked |
| IntelligentNavigation.HandleItemClick | frontend/hair-egonomie/src/components/IntelligentNavigation.jsx:63-66 | records one click on the item, with its type as metadata, with the whole effect of `trackClick` and nothing else changed (`RecordsClick`), then selects its label |
| IntelligentNavigation.HandleRecommendationClick | frontend/hair-egonomie/src/components/IntelligentNavigation.jsx:68-75 | records one click with type `recommendation` and the reason, with the whole effect of `trackClick`, focus and click window included, and nothing else changed (`RecordsClick`), then hands the item to the recommendation callback when there is one, and otherwise selects its label |
| Scenario.HesitantUserIsReachable | frontend/hair-egonomie/src/hooks/useUserState.js:24-89 | a newcomer whose only history is a 3.5 s hover over the `decouvrir` card, ended three seconds in, has hesitation level 3 and is `hesitant`; the record is settled, and the tracker reaches it from mounting by a hover start, the interval's three ticks and a hover end on that card |
| Scenario.HesitantUserScoresDiscovery | frontend/hair-egonomie/src/utils/navigationAlgorithm.js:24-70 | for that newcomer, a simple discovery item scores 15 + 12 = 27, and 32 with the long-hover bonus when it is the hovered card |
| Scenario.HesitantUserIgnoresOthers | frontend/hair-egonomie/src/utils/navigationAlgorithm.js:24-70 | for that user, medium or advanced learn and practice items score 0, or 5 if one were the hovered card |
| Scenario.HesitantUserStartsWithDiscovery | frontend/hair-egonomie/src/utils/navigationAlgorithm.js:6-134 | for that user, the hovered discovery card ahead of two harder items keeps the order and is the only recommendation, with the reason for beginners |
| Scenario.CatalogStartsWithDiscovery | frontend/hair-egonomie/src/components/IntelligentNavigation.jsx:12-49 | for that user, the panel's catalog yields the single recommendation `decouvrir`, labelled `Découvrir`, with the reason for beginners |
| Scenario.DiscoveryComesFirst | frontend/hair-egonomie/src/components/IntelligentNavigation.jsx:13-22 | the catalog's first item is `decouvrir`, labelled `Découvrir` |

## Left out

- Navigation.Score: its own contract only bounds the score. The effect of each rule is stated by `PreferenceRaisesScoreByTen`, `FirstPreferenceCanCostFreshness`, `RecentClickCostsThree` and the `Scenario` lemmas, not rule by rule for every input.
- UserTracking.MentalStateOf: its own contract states the consequences of each outcome. The full cascade, both ways, is `MentalStateIsFirstMatch`.
- JourneyFlow.BuildJourneySteps: a module's type is one of the five types of the generator's catalog, so a step built from a module with any other `type` string, or a content step without a module, is not modelled. In the source such a step would get the id `content_<type>_<i>` and the content `article1`; in the model only a video reaches the `article1` default.
- `onComplete` is optional in the source (`if (onComplete)`). The model always reports the statistics as `Finished`; a parent that passes no callback simply receives nothing, which the model does not distinguish.
- UserTracking.Click: the click metadata is kept as a separate field of the interaction. A metadata key named `itemId`, `timestamp` or `timeSpent` would override that field in the source's object spread; this is not modelled.
- UserTracking.Click: `trackClick` reads `timeSpent` from the render in which the handler was created. The model uses the current state's value; React's stale closures are not modelled.
- React effects, `setInterval`, the 500 ms `setTimeout` before advancing, and `window.scrollTo` are not modelled. The one-second interval is the `Tick` transition. The classifier effect is `Settle`, applied synchronously after the transitions that change its inputs.
- `Date.now()` is not modelled; every transition takes the clock reading as `now`.
- Floating-point values: transition durations are stored in tenths of a second. The average hover time is compared by cross-multiplication, proved equal to the division.
- Answers are strings or missing. Other JavaScript values (`null`, numbers, objects) are not modelled; a `null` would print as `null` in the description, where a missing answer prints `undefined`.
- `getContent` and the content store of `journeyManager` are not part of this model. The flow stops at the content id it would look up.
- Rendering, animation, icons and styles are not modelled: JSX, `FloatingCards`, `SplashScreen`, `NextButton`, `CompletionScreen`, `QuestionCard` and the animation variants. The items' `IconComponent` field is dropped.
- The commented-out progressive-reveal policy in `navigationAlgorithm.js` is inactive code and is not modelled.
- The backend (Express routes, their tests, and the Django files) serves static data and is not modelled.

=== FILE: cascade.dfy ===
/** Priority cascades written as tables: an ordered list of (guard, outcome)
    rows read top to bottom, the first row whose guard holds deciding the
    outcome. The classifier and the recommendation reason are chains of
    `if`/`else if`; each is proved equal to such a table. */
module Cascade {

  datatype Rule<!C, O> = Rule(guard: C -> bool, outcome: O)

  /** The outcome of the first row whose guard holds of `c`, or `fallback`
      when none does. */
  function FirstMatch<C, O>(rules: seq<Rule<C, O>>, c: C, fallback: O): (r: O)
    ensures || (exists i :: 0 <= i < |rules| && rules[i].guard(c) && r == rules[i].outcome
                             && forall j :: 0 <= j < i ==> !rules[j].guard(c))
            || ((forall i :: 0 <= i < |rules| ==> !rules[i].guard(c)) && r == fallback)
  {
    if |rules| == 0 then fallback
    else if rules[0].guard(c) then rules[0].outcome
    else
      var r := FirstMatch(rules[1..], c, fallback);
      assert forall i :: 1 <= i < |rules| ==> rules[i] == rules[1..][i - 1];
      r
  }

  /** Reading the table from row `k`: either row `k` fires or the rows after it decide. */
  lemma FirstMatchFrom<C, O>(rules: seq<Rule<C, O>>, k: nat, c: C, fallback: O)
    requires k < |rules|
    ensures FirstMatch(rules[k..], c, fallback)
            == if rules[k].guard(c) then rules[k].outcome else FirstMatch(rules[k + 1..], c, fallback)
  {
  }
}

=== FILE: decimal.dfy ===
/** Decimal rendering of a non-negative integer, as a template literal
    `${n}` prints an array index. */
module Decimal {

  predicate IsDigit(c: char) {
    '0' <= c <= '9'
  }

  function DigitChar(d: nat): (c: char)
    requires d < 10
    ensures IsDigit(c)
  {
    (('0' as int) + d) as char
  }

  function DigitValue(c: char): int {
    (c as int) - ('0' as int)
  }

  /** `${n}` for an index `n`: its decimal digits, most significant first,
      without leading zeros. */
  function Show(n: nat): (s: string)
    ensures |s| >= 1
    ensures forall i :: 0 <= i < |s| ==> IsDigit(s[i])
    ensures |s| > 1 ==> s[0] != '0'
  {
    if n < 10 then [DigitChar(n)] else Show(n / 10) + [DigitChar(n % 10)]
  }

  /** Reads a string of decimal digits back as a number. */
  function Parse(s: string): int {
    if |s| == 0 then 0 else 10 * Parse(s[..|s| - 1]) + DigitValue(s[|s| - 1])
  }

  /** `Show` loses nothing: parsing what it prints gives the number back. */
  lemma {:induction false} ParseShow(n: nat)
    ensures Parse(Show(n)) == n
  {
    if n >= 10 {
      var s := Show(n);
      assert s[..|s| - 1] == Show(n / 10);
      ParseShow(n / 10);
    }
  }

  /** Different indices are printed differently. */
  lemma ShowInjective(m: nat, n: nat)
    requires Show(m) == Show(n)
    ensures m == n
  {
    ParseShow(m);
    ParseShow(n);
  }
}

=== FILE: dict.dfy ===
/** String-keyed integer tables: the JavaScript plain objects `hoverTimes`,
    `preferences` and the pending hover starts. An object never holds a
    key twice, so a table is an association list whose keys are distinct. */
module Dict {

  datatype Entry = Entry(key: string, value: int)

  type Dict = seq<Entry>

  predicate Has(d: Dict, k: string) {
    |d| > 0 && (d[0].key == k || Has(d[1..], k))
  }

  predicate DistinctKeys(d: Dict) {
    |d| == 0 || (!Has(d[1..], d[0].key) && DistinctKeys(d[1..]))
  }

  /** `d[k] || 0`: the value stored under `k`, and 0 when `k` is absent. */
  function Get(d: Dict, k: string): (v: int)
    ensures !Has(d, k) ==> v == 0
  {
    if |d| == 0 then 0
    else if d[0].key == k then d[0].value
    else Get(d[1..], k)
  }

  /** `{...d, [k]: v}`. */
  function Put(d: Dict, k: string, v: int): (r: Dict)
    ensures Get(r, k) == v
    ensures forall k' :: k' != k ==> Get(r, k') == Get(d, k')
    ensures forall k' :: Has(r, k') <==> Has(d, k') || k' == k
    ensures Has(d, k) ==> |r| == |d|
    ensures !Has(d, k) ==> |r| == |d| + 1
    ensures DistinctKeys(d) ==> DistinctKeys(r)
  {
    if |d| == 0 then [Entry(k, v)]
    else if d[0].key == k then
      assert ([Entry(k, v)] + d[1..])[1..] == d[1..];
      [Entry(k, v)] + d[1..]
    else
      var r := [d[0]] + Put(d[1..], k, v);
      assert r[1..] == Put(d[1..], k, v);
      r
  }

  /** `delete d[k]`. */
  function Remove(d: Dict, k: string): (r: Dict)
    ensures !Has(r, k)
    ensures forall k' :: k' != k ==> Get(r, k') == Get(d, k')
    ensures forall k' :: k' != k ==> (Has(r, k') <==> Has(d, k'))
    ensures DistinctKeys(d) ==> DistinctKeys(r)
  {
    if |d| == 0 then []
    else if d[0].key == k then Remove(d[1..], k)
    else
      var r := [d[0]] + Remove(d[1..], k);
      assert r[1..] == Remove(d[1..], k);
      r
  }

  /** The sum of all values: `Object.values(d).reduce((a, b) => a + b, 0)`. */
  function Total(d: Dict): int {
    if |d| == 0 then 0 else d[0].value + Total(d[1..])
  }

  /** Storing `v` under `k` changes the sum by the difference with the old value. */
  lemma {:induction false} TotalPut(d: Dict, k: string, v: int)
    requires DistinctKeys(d)
    ensures Total(Put(d, k, v)) == Total(d) - Get(d, k) + v
    decreases |d|
  {
    if |d| == 0 {
    } else if d[0].key == k {
      assert Put(d, k, v)[1..] == d[1..];
    } else {
      TotalPut(d[1..], k, v);
      assert Put(d, k, v)[1..] == Put(d[1..], k, v);
    }
  }
}

=== FILE: intelligent_navigation.dfy ===
/** The non-rendering logic of the `IntelligentNavigation` component: the
    fixed three-item catalog, the visibility filter, the marking of
    recommended items and the click handlers. */
module IntelligentNavigation {
  import opened Options
  import opened Dict
  import opened StableSort
  import opened UserTracking
  import opened Navigation

  /** The catalog the component holds in its state. Icons are left out. */
  function Catalog(): (items: seq<NavItem>)
    ensures |items| == 3
    ensures items[0].id == "decouvrir" && items[0].kind == "discover" && items[0].complexity == "simple"
    ensures items[1].id == "apprendre" && items[1].kind == "learn" && items[1].complexity == "medium"
    ensures items[2].id == "exercer" && items[2].kind == "practice" && items[2].complexity == "advanced"
    ensures forall i :: 0 <= i < |items| ==> !items[i].recommended
  {
    [ NavItem("decouvrir", "Découvrir", "Explorez les concepts clés de l'ergonomie", "#ec4899",
              "discover", "simple", false),
      NavItem("apprendre", "Apprendre", "Approfondissez vos connaissances en UX/UI", "#db2777",
              "learn", "medium", false),
      NavItem("exercer", "S'exercer", "Mettez en pratique avec des cas concrets", "#f472b6",
              "practice", "advanced", false) ]
  }

  /** `orderedItems.filter((item, index) => shouldShowItem(item, userState, index))`,
      the index counted from `from`. */
  function VisibleFrom(ordered: seq<ScoredItem>, u: UserState, from: nat): (visible: seq<ScoredItem>)
    ensures visible == ordered
    decreases |ordered|
  {
    if |ordered| == 0 then []
    else
      var rest := VisibleFrom(ordered[1..], u, from + 1);
      if ShouldShowItem(ordered[0], u, from) then [ordered[0]] + rest else rest
  }

  function VisibleItems(ordered: seq<ScoredItem>, u: UserState): (visible: seq<ScoredItem>)
    ensures visible == ordered
  {
    VisibleFrom(ordered, u, 0)
  }

  /** `recommendations.find(rec => rec.id === id)`. */
  function FindRecommendation(recs: seq<Recommendation>, id: string): (found: Option<Recommendation>)
    ensures found.None? <==> forall i :: 0 <= i < |recs| ==> recs[i].id != id
    ensures found.Some? ==> exists i :: 0 <= i < |recs| && recs[i] == found.value && recs[i].id == id
                                        && forall j :: 0 <= j < i ==> recs[j].id != id
  {
    if |recs| == 0 then None
    else if recs[0].id == id then Some(recs[0])
    else
      var found := FindRecommendation(recs[1..], id);
      assert forall i :: 1 <= i < |recs| ==> recs[i] == recs[1..][i - 1];
      found
  }

  /** Some recommendation names `id`. */
  predicate Names(recs: seq<Recommendation>, id: string) {
    exists i :: 0 <= i < |recs| && recs[i].id == id
  }

  /** A shown item with its recommendation mark. */
  datatype MarkedItem = MarkedItem(scored: ScoredItem, isRecommended: bool,
                                   recommendationReason: Option<ReasonKind>)

  function Mark(s: ScoredItem, recs: seq<Recommendation>): MarkedItem {
    var found := FindRecommendation(recs, s.item.id);
    MarkedItem(s, found.Some?, if found.Some? then Some(found.value.reason) else None)
  }

  /** `visibleItems.map(...)` adding `isRecommended` and `recommendationReason`. */
  function MarkRecommendations(visible: seq<ScoredItem>, recs: seq<Recommendation>): (marked: seq<MarkedItem>)
    ensures |marked| == |visible|
    ensures forall j :: 0 <= j < |visible| ==> marked[j] == Mark(visible[j], recs)
  {
    seq(|visible|, j requires 0 <= j < |visible| => Mark(visible[j], recs))
  }

  /** What the component shows: the catalog's items in ranked order, each
      marked exactly when some recommendation names its id. */
  function Panel(u: UserState): (panel: seq<MarkedItem>)
    ensures var result := CalculateNavigationOrder(Catalog(), u);
            && |panel| == |result.orderedItems|
            && forall j :: 0 <= j < |panel| ==>
                 && panel[j].scored == result.orderedItems[j]
                 && (panel[j].isRecommended <==> Names(result.recommendations, result.orderedItems[j].item.id))
  {
    var result := CalculateNavigationOrder(Catalog(), u);
    MarkRecommendations(VisibleItems(result.orderedItems, u), result.recommendations)
  }

  function CountRecommended(marked: seq<MarkedItem>): nat {
    if |marked| == 0 then 0
    else (if marked[0].isRecommended then 1 else 0) + CountRecommended(marked[1..])
  }

  lemma {:induction false} CountRecommendedPrefix(marked: seq<MarkedItem>, n: nat)
    requires n <= |marked|
    requires forall j :: 0 <= j < |marked| ==> (marked[j].isRecommended <==> j < n)
    ensures CountRecommended(marked) == n
    decreases |marked|
  {
    if |marked| > 0 {
      if n > 0 {
        CountRecommendedPrefix(marked[1..], n - 1);
      } else {
        CountRecommendedPrefix(marked[1..], 0);
      }
    }
  }

  /** The ranking of the catalog never shows the same id twice. */
  lemma RankedIdsDistinct(u: UserState)
    ensures DistinctBy(CalculateNavigationOrder(Catalog(), u).orderedItems, IdOf)
  {
    var scored := ScoreAll(Catalog(), u);
    assert DistinctBy(scored, IdOf);
    SortKeepsDistinct(scored, ScoreOf, IdOf);
  }

  /** When the recommendations name the leading items of a list without
      repeated ids, item j is found exactly when it is one of them, and
      then with its own recommendation. */
  lemma MarkOfLeadingItem(ordered: seq<ScoredItem>, recs: seq<Recommendation>, j: nat)
    requires DistinctBy(ordered, IdOf)
    requires |recs| <= |ordered| && j < |ordered|
    requires forall i :: 0 <= i < |recs| ==> recs[i].id == ordered[i].item.id
    ensures var m := Mark(ordered[j], recs);
            && (m.isRecommended <==> j < |recs|)
            && (j < |recs| ==> m.recommendationReason == Some(recs[j].reason))
            && (j >= |recs| ==> m.recommendationReason == None)
  {
    var found := FindRecommendation(recs, ordered[j].item.id);
    if j < |recs| {
      var i :| 0 <= i < |recs| && recs[i] == found.value && recs[i].id == ordered[j].item.id
               && forall k :: 0 <= k < i ==> recs[k].id != ordered[j].item.id;
      assert IdOf(ordered[i]) == IdOf(ordered[j]);
    } else {
      forall i | 0 <= i < |recs| ensures recs[i].id != ordered[j].item.id {
        assert IdOf(ordered[i]) != IdOf(ordered[j]);
      }
    }
  }

  /** On screen, the recommended items are exactly the leading items of the
      ranking that were recommended, each with its recommendation's reason;
      so at most two are marked. */
  lemma {:induction false} ViewMarksLeadingItems(u: UserState)
    ensures var result := CalculateNavigationOrder(Catalog(), u);
            var panel := Panel(u);
            && |panel| == 3
            && (forall j :: 0 <= j < |panel| ==>
                  && panel[j].scored == result.orderedItems[j]
                  && (panel[j].isRecommended <==> j < |result.recommendations|)
                  && (j < |result.recommendations| ==>
                        panel[j].recommendationReason == Some(result.recommendations[j].reason))
                  && (j >= |result.recommendations| ==> panel[j].recommendationReason == None))
            && CountRecommended(panel) <= 2
  {
    var result := CalculateNavigationOrder(Catalog(), u);
    var ordered := result.orderedItems;
    var recs := result.recommendations;
    var panel := Panel(u);
    RankedIdsDistinct(u);
    assert forall i :: 0 <= i < |recs| ==> recs[i].id == ordered[i].item.id;
    forall j | 0 <= j < |panel|
      ensures && (panel[j].isRecommended <==> j < |recs|)
              && (j < |recs| ==> panel[j].recommendationReason == Some(recs[j].reason))
              && (j >= |recs| ==> panel[j].recommendationReason == None)
    {
      assert panel[j] == Mark(ordered[j], recs);
      MarkOfLeadingItem(ordered, recs, j);
    }
    CountRecommendedPrefix(panel, |recs|);
  }

  /** `handleItemClick`: record a click on the item with its type as
      metadata, then select its label. */
  function HandleItemClick(t: Tracker, item: NavItem, now: int): (r: (Tracker, string))
    ensures var s := r.0.state;
            && s.interactions == t.state.interactions
                                 + [Interaction(item.id, now, t.state.timeSpent, map["type" := item.kind])]
            && Get(s.preferences, item.id) == Get(t.state.preferences, item.id) + 1
            && |s.clickPatterns| >= 1 && s.clickPatterns[|s.clickPatterns| - 1] == item.id
            && s.currentFocus == Some(item.id)
    ensures RecordsClick(t, r.0, item.id, map["type" := item.kind], now)
    ensures r.1 == item.name
  {
    (Click(t, item.id, map["type" := item.kind], now), item.name)
  }

  /** Where a recommendation click goes: to the recommendation callback when
      the parent gave one, otherwise to the plain selection by label. */
  datatype Selection = SelectLabel(labelText: string) | SelectRecommended(item: NavItem, reason: string)

  /** `handleRecommendationClick` for the catalog item a recommendation
      names: record a click with type `recommendation` and the reason, then
      hand the item on. */
  function HandleRecommendationClick(t: Tracker, item: NavItem, reason: ReasonKind, now: int,
                                     hasRecommendationCallback: bool): (r: (Tracker, Selection))
    ensures var s := r.0.state;
            && s.interactions == t.state.interactions
                 + [Interaction(item.id, now, t.state.timeSpent,
                                map["type" := "recommendation", "reason" := ReasonText(reason)])]
            && Get(s.preferences, item.id) == Get(t.state.preferences, item.id) + 1
    ensures RecordsClick(t, r.0, item.id, map["type" := "recommendation", "reason" := ReasonText(reason)], now)
    ensures hasRecommendationCallback ==> r.1 == SelectRecommended(item, ReasonText(reason))
    ensures !hasRecommendationCallback ==> r.1 == SelectLabel(item.name)
  {
    var t' := Click(t, item.id, map["type" := "recommendation", "reason" := ReasonText(reason)], now);
    (t', if hasRecommendationCallback then SelectRecommended(item, ReasonText(reason)) else SelectLabel(item.name))
  }
}

=== FILE: journey_flow.dfy ===
/** The journey flow controller (`JourneyFlow`): the module list expanded
    into alternating content and question steps closed by a final quiz,
    the module-type to content-id table, and the step index and quiz
    statistics as the handlers update them. */
module JourneyFlow {
  import opened Options
  import opened Decimal
  import opened JourneyGenerator

  /** A step of the journey. Content steps carry their module; question
      steps carry the question-set id. `isFinalQuiz` is absent (false) on
      the per-module questions. `courseModule` is the step's `module` field. */
  datatype Step =
    | ContentStep(id: string, courseModule: Module, moduleIndex: nat, contentType: ModuleType, title: string)
    | QuestionStep(id: string, moduleIndex: nat, isLast: bool, isFinalQuiz: bool)

  /** `content_${type}_${index}`. */
  function ContentStepId(k: ModuleType, index: nat): string {
    "content_" + TypeName(k) + "_" + Show(index)
  }

  /** `question_${index}`. */
  function QuestionStepId(index: nat): string {
    "question_" + Show(index)
  }

  function ContentFor(m: Module, index: nat): Step {
    ContentStep(ContentStepId(m.kind, index), m, index, m.kind, m.name)
  }

  function QuestionFor(index: nat): Step {
    QuestionStep(QuestionStepId(index), index, false, false)
  }

  function FinalQuiz(moduleCount: nat): Step {
    QuestionStep("final_quiz", moduleCount, true, true)
  }

  /** Step `k` of the journey over `ms`: even positions are the modules'
      content, odd positions their questions, and position `2 * |ms|` the
      final quiz. */
  function StepAt(ms: seq<Module>, k: nat): Step
    requires k <= 2 * |ms|
  {
    if k == 2 * |ms| then FinalQuiz(|ms|)
    else if k % 2 == 0 then ContentFor(ms[k / 2], k / 2)
    else QuestionFor(k / 2)
  }

  /** `buildJourneySteps`: no steps without a module list, otherwise a
      content step and a question step per module followed by the final
      quiz. `None` stands for a missing journey or a journey without
      `modules`. */
  function BuildJourneySteps(modules: Option<seq<Module>>): (steps: seq<Step>)
    ensures modules.None? ==> steps == []
    ensures modules.Some? ==>
      var ms := modules.value;
      && |steps| == 2 * |ms| + 1
      && (forall i :: 0 <= i < |ms| ==>
            && steps[2 * i] == ContentStep(ContentStepId(ms[i].kind, i), ms[i], i, ms[i].kind, ms[i].name)
            && steps[2 * i + 1] == QuestionStep(QuestionStepId(i), i, false, false))
      && steps[2 * |ms|] == QuestionStep("final_quiz", |ms|, true, true)
  {
    match modules
    case None => []
    case Some(ms) =>
      var steps := seq(2 * |ms| + 1, k requires 0 <= k <= 2 * |ms| => StepAt(ms, k));
      forall i | 0 <= i < |ms|
        ensures steps[2 * i] == ContentFor(ms[i], i) && steps[2 * i + 1] == QuestionFor(i)
      {
        assert (2 * i) / 2 == i && (2 * i) % 2 == 0;
        assert (2 * i + 1) / 2 == i && (2 * i + 1) % 2 == 1;
      }
      steps
  }

  /** Step `a` of the journey over `ms`, read through the layout. */
  lemma StepIdAt(ms: seq<Module>, a: nat)
    requires a <= 2 * |ms|
    ensures var steps := BuildJourneySteps(Some(ms));
            steps[a].id == (if a == 2 * |ms| then "final_quiz"
                            else if a % 2 == 0 then ContentStepId(ms[a / 2].kind, a / 2)
                            else QuestionStepId(a / 2))
  {
    var i := a / 2;
    if a < 2 * |ms| {
      if a % 2 == 0 {
        assert a == 2 * i;
      } else {
        assert a == 2 * i + 1;
      }
    }
  }

  /** A type name has no underscore, so in `content_<type>_<index>` the
      last underscore separates the type from the index. */
  lemma TypeNameHasNoUnderscore(k: ModuleType)
    ensures |TypeName(k)| > 0
    ensures forall c :: 0 <= c < |TypeName(k)| ==> TypeName(k)[c] != '_'
  {
  }

  /** Two content ids are equal only for the same module index. */
  lemma ContentStepIdsDiffer(k1: ModuleType, i: nat, k2: ModuleType, j: nat)
    ensures ContentStepId(k1, i) == ContentStepId(k2, j) ==> i == j
  {
    var t1, t2 := TypeName(k1), TypeName(k2);
    var x, y := t1 + "_" + Show(i), t2 + "_" + Show(j);
    assert ContentStepId(k1, i) == "content_" + x;
    assert ContentStepId(k2, j) == "content_" + y;
    if x == y {
      TypeNameHasNoUnderscore(k1);
      TypeNameHasNoUnderscore(k2);
      assert x[|t1|] == '_' && y[|t2|] == '_';
      assert forall c :: 0 <= c < |t1| ==> x[c] == t1[c];
      assert forall c :: 0 <= c < |t2| ==> y[c] == t2[c];
      assert y[|t1|] == '_' && x[|t2|] == '_';
      assert |t1| == |t2|;
      assert x[|t1| + 1..] == Show(i) && y[|t2| + 1..] == Show(j);
      ShowInjective(i, j);
    } else {
      assert ("content_" + x)[8..] == x && ("content_" + y)[8..] == y;
    }
  }

  /** Two question ids are equal only for the same module index. */
  lemma QuestionStepIdsDiffer(i: nat, j: nat)
    ensures QuestionStepId(i) == QuestionStepId(j) ==> i == j
  {
    assert QuestionStepId(i)[9..] == Show(i) && QuestionStepId(j)[9..] == Show(j);
    if QuestionStepId(i) == QuestionStepId(j) {
      ShowInjective(i, j);
    }
  }

  /** Content ids start with `c`, question ids with `q`, the final quiz with `f`. */
  lemma StepIdLeads(k: ModuleType, i: nat)
    ensures ContentStepId(k, i)[0] == 'c'
    ensures QuestionStepId(i)[0] == 'q'
    ensures "final_quiz"[0] == 'f'
  {
  }

  /** No two steps of a journey share an id. */
  lemma StepIdsDistinct(ms: seq<Module>)
    ensures var steps := BuildJourneySteps(Some(ms));
            forall a, b :: 0 <= a < b < |steps| ==> steps[a].id != steps[b].id
  {
    var steps := BuildJourneySteps(Some(ms));
    forall a, b | 0 <= a < b < |steps|
      ensures steps[a].id != steps[b].id
    {
      StepIdAt(ms, a);
      StepIdAt(ms, b);
      var i, j := a / 2, b / 2;
      if a % 2 == 0 {
        StepIdLeads(ms[i].kind, i);
        if b == 2 * |ms| {
          assert steps[a].id[0] != steps[b].id[0];
        } else if b % 2 == 0 {
          StepIdLeads(ms[j].kind, j);
          ContentStepIdsDiffer(ms[i].kind, i, ms[j].kind, j);
        } else {
          StepIdLeads(ms[i].kind, j);
          assert steps[a].id[0] != steps[b].id[0];
        }
      } else {
        StepIdLeads(Article, i);
        if b == 2 * |ms| {
          assert steps[a].id[0] != steps[b].id[0];
        } else if b % 2 == 0 {
          StepIdLeads(ms[j].kind, j);
          assert steps[a].id[0] != steps[b].id[0];
        } else {
          QuestionStepIdsDiffer(i, j);
        }
      }
    }
  }

  /** Only the final quiz is marked as the last step. */
  lemma OnlyFinalStepIsLast(modules: Option<seq<Module>>, k: nat)
    requires k < |BuildJourneySteps(modules)|
    ensures var steps := BuildJourneySteps(modules);
            steps[k].QuestionStep? && steps[k].isLast <==> k == |steps| - 1
  {
  }

  // ---------------------------------------------------------------------
  // Content lookup
  // ---------------------------------------------------------------------

  const ArticleIds: seq<string> := ["article1", "article1b", "article2", "article3", "article4", "article5"]
  const ExerciseIds: seq<string> := ["exercise1", "exercise2", "exercise3"]

  /** The content id `getCurrentContent` looks up for a content step. Video
      modules fall to the default `article1`. */
  function ContentIdFor(k: ModuleType, moduleIndex: nat): (id: string)
    ensures k == Article ==> id == ArticleIds[moduleIndex % 6]
    ensures k == Exercice ==> id == ExerciseIds[moduleIndex % 3]
    ensures k == Exemple ==> id == "article2"
    ensures k == Resume ==> id == "article3"
    ensures k == Video ==> id == "article1"
  {
    match k
    case Article => ArticleIds[moduleIndex % |ArticleIds|]
    case Exercice => ExerciseIds[moduleIndex % |ExerciseIds|]
    case Exemple => "article2"
    case Resume => "article3"
    case Video => "article1"
  }

  /** The content id for the current step, looked up from its module's
      type and index; question steps have no content. */
  function CurrentContentId(step: Step): (id: Option<string>)
    ensures step.QuestionStep? <==> id.None?
    ensures step.ContentStep? ==> id == Some(ContentIdFor(step.courseModule.kind, step.moduleIndex))
  {
    match step
    case ContentStep(_, m, index, _, _) => Some(ContentIdFor(m.kind, index))
    case QuestionStep(_, _, _, _) => None
  }

  /** Along a journey, step 2i shows the content of module i's type at
      index i, and every other step shows none. */
  lemma StepContentIds(ms: seq<Module>, a: nat)
    requires a <= 2 * |ms|
    ensures var steps := BuildJourneySteps(Some(ms));
            CurrentContentId(steps[a]) == (if a < 2 * |ms| && a % 2 == 0
                                            then Some(ContentIdFor(ms[a / 2].kind, a / 2))
                                            else None)
  {
    var i := a / 2;
    if a < 2 * |ms| {
      if a % 2 == 0 {
        assert a == 2 * i;
      } else {
        assert a == 2 * i + 1;
      }
    }
  }

  /** Six consecutive article modules are shown six different articles, and
      three consecutive exercise modules three different exercises. */
  lemma ContentIdsRotate(i: nat, j: nat)
    ensures i < j < i + 6 ==> ContentIdFor(Article, i) != ContentIdFor(Article, j)
    ensures i < j < i + 3 ==> ContentIdFor(Exercice, i) != ContentIdFor(Exercice, j)
    ensures ContentIdFor(Article, i + 6) == ContentIdFor(Article, i)
    ensures ContentIdFor(Exercice, i + 3) == ContentIdFor(Exercice, i)
  {
  }

  // ---------------------------------------------------------------------
  // Step index and quiz statistics
  // ---------------------------------------------------------------------

  datatype Stats = Stats(total: int, completed: int)

  /** What a question card reports; a missing report or field is `None`. */
  datatype Report = Report(total: Option<int>, completed: Option<int>)

  datatype FlowState = FlowState(index: nat, stats: Stats)

  /** After a handler, either the flow moves on or it signals completion with
      the statistics passed to `onComplete`. */
  datatype Outcome =
    | Continue(state: FlowState)
    | Finished(state: FlowState, finalStats: Stats)

  /** `useState(0)` and `useState({ total: 0, completed: 0 })`. */
  function Initial(): FlowState {
    FlowState(0, Stats(0, 0))
  }

  /** `stats?.total || 0`, `stats?.completed || 0`. */
  function Normalized(r: Report): Stats {
    Stats(r.total.GetOr(0), r.completed.GetOr(0))
  }

  /** `handleContentNext`: advance by one unless at the last step, where the
      accumulated statistics are reported. */
  function ContentNext(stepCount: nat, s: FlowState): (o: Outcome)
    ensures o.Finished? <==> s.index >= stepCount - 1
    ensures o.Continue? ==> o.state == FlowState(s.index + 1, s.stats) && o.state.index <= stepCount - 1
    ensures o.Finished? ==> o.state == s && o.finalStats == s.stats
  {
    if s.index < stepCount - 1 then Continue(FlowState(s.index + 1, s.stats))
    else Finished(s, s.stats)
  }

  /** `handleQuestionComplete`: accumulate the report only when its total is
      positive, then advance, or at the last step report the statistics
      accumulated before plus this report. */
  function QuestionComplete(stepCount: nat, s: FlowState, r: Report): (o: Outcome)
    ensures o.Finished? <==> s.index >= stepCount - 1
    ensures o.Continue? ==> o.state.index == s.index + 1 && o.state.index <= stepCount - 1
    ensures o.Finished? ==> o.state.index == s.index
    ensures Normalized(r).total > 0 ==>
              o.state.stats == Stats(s.stats.total + Normalized(r).total, s.stats.completed + Normalized(r).completed)
    ensures Normalized(r).total <= 0 ==> o.state.stats == s.stats
    ensures o.Finished? ==>
              o.finalStats == Stats(s.stats.total + Normalized(r).total, s.stats.completed + Normalized(r).completed)
  {
    var v := Normalized(r);
    var stats := if v.total > 0 then Stats(s.stats.total + v.total, s.stats.completed + v.completed) else s.stats;
    if s.index < stepCount - 1 then Continue(FlowState(s.index + 1, stats))
    else Finished(FlowState(s.index, stats), Stats(s.stats.total + v.total, s.stats.completed + v.completed))
  }

  datatype FlowEvent = NextContent | AnswerQuestion(report: Report)

  function Handle(stepCount: nat, s: FlowState, e: FlowEvent): Outcome {
    match e
    case NextContent => ContentNext(stepCount, s)
    case AnswerQuestion(r) => QuestionComplete(stepCount, s, r)
  }

  /** Handlers applied in order until one signals completion; returns the
      final state and the reported statistics, if completion was reached. */
  function Run(stepCount: nat, s: FlowState, events: seq<FlowEvent>): (FlowState, Option<Stats>)
    decreases |events|
  {
    if |events| == 0 then (s, None)
    else
      match Handle(stepCount, s, events[0])
      case Continue(s') => Run(stepCount, s', events[1..])
      case Finished(s', stats) => (s', Some(stats))
  }

  /** Whatever the handlers receive, the index moves by one per handled event
      and never passes the last step. */
  lemma {:induction false} RunStaysInSteps(stepCount: nat, s: FlowState, events: seq<FlowEvent>)
    requires 0 < stepCount && s.index < stepCount
    ensures var (s', _) := Run(stepCount, s, events);
            s.index <= s'.index < stepCount && s'.index <= s.index + |events|
    decreases |events|
  {
    if |events| > 0 {
      match Handle(stepCount, s, events[0])
      case Continue(next) => RunStaysInSteps(stepCount, next, events[1..]);
      case Finished(_, _) =>
    }
  }

  /** Completion is only ever reported from the last step. */
  lemma {:induction false} RunFinishesOnlyAtLastStep(stepCount: nat, s: FlowState, events: seq<FlowEvent>)
    requires 0 < stepCount && s.index < stepCount
    ensures var (s', done) := Run(stepCount, s, events);
            done.Some? ==> s'.index == stepCount - 1
    decreases |events|
  {
    if |events| > 0 {
      match Handle(stepCount, s, events[0])
      case Continue(next) => RunFinishesOnlyAtLastStep(stepCount, next, events[1..]);
      case Finished(_, _) =>
    }
  }

  /** Statistics only ever grow by a positive total, so the accumulated
      total never drops below zero. */
  lemma {:induction false} RunKeepsTotalNonNegative(stepCount: nat, s: FlowState, events: seq<FlowEvent>)
    requires s.stats.total >= 0
    ensures Run(stepCount, s, events).0.stats.total >= 0
    decreases |events|
  {
    if |events| > 0 {
      match Handle(stepCount, s, events[0])
      case Continue(next) => RunKeepsTotalNonNegative(stepCount, next, events[1..]);
      case Finished(_, _) =>
    }
  }

  /** From the component's first render, whatever handlers run: the index
      stays within the steps, completion comes only from the last step, and
      the accumulated total is never negative. */
  lemma RunFromInitial(stepCount: nat, events: seq<FlowEvent>)
    requires 0 < stepCount
    ensures var (s', done) := Run(stepCount, Initial(), events);
            && s'.index < stepCount && s'.index <= |events|
            && (done.Some? ==> s'.index == stepCount - 1)
            && s'.stats.total >= 0
  {
    RunStaysInSteps(stepCount, Initial(), events);
    RunFinishesOnlyAtLastStep(stepCount, Initial(), events);
    RunKeepsTotalNonNegative(stepCount, Initial(), events);
  }
}

=== FILE: journey_generator.dfy ===
/** The journey generator (`generateJourney`): four questionnaire answers
    give an ordered list of content modules, a pacing preset and a
    description. */
module JourneyGenerator {
  import opened Options

  datatype ModuleType = Article | Video | Exercice | Exemple | Resume

  /** A content module of the fixed catalog. `name` is the module's `label`. */
  datatype Module = Module(kind: ModuleType, name: string, icon: string, duration: string)

  /** The questionnaire answers. Each may be missing (`undefined`) or hold
      any string; unrecognised values fall to the default branches. */
  datatype Answers = Answers(level: Option<string>, intention: Option<string>,
                             rythme: Option<string>, style: Option<string>)

  /** A pacing preset; `transitionTenths` is the transition duration in
      tenths of a second, `revealDelay` in milliseconds. */
  datatype Pacing = Pacing(transitionTenths: nat, revealDelay: nat, showOneAtATime: bool)

  /** `{ level, intention, rythme, style, ...preset }`; `pacing` is `None`
      when the looked-up preset is missing and nothing is spread. */
  datatype JourneyConfig = JourneyConfig(level: Option<string>, intention: Option<string>,
                                         rythme: Option<string>, style: Option<string>,
                                         pacing: Option<Pacing>)

  datatype Journey = Journey(modules: seq<Module>, config: JourneyConfig, description: string)

  /** The module catalog. */
  function ModuleOf(k: ModuleType): (m: Module)
    ensures m.kind == k
  {
    match k
    case Article => Module(Article, "Article", "📖", "5-10 min")
    case Video => Module(Video, "Vidéo", "🎬", "3-5 min")
    case Exercice => Module(Exercice, "Exercice", "💪", "10-15 min")
    case Exemple => Module(Exemple, "Exemple", "💡", "2-3 min")
    case Resume => Module(Resume, "Résumé", "📝", "2-5 min")
  }

  /** The module's `type` string. */
  function TypeName(k: ModuleType): string {
    match k
    case Article => "article"
    case Video => "video"
    case Exercice => "exercice"
    case Exemple => "exemple"
    case Resume => "resume"
  }

  predicate Is(answer: Option<string>, value: string) {
    answer == Some(value)
  }

  // ---------------------------------------------------------------------
  // Module sequence
  // ---------------------------------------------------------------------

  /** Step 1: the base sequence by intention, refined by style (or, for an
      unrecognised intention, by level). */
  function BaseSequence(a: Answers): seq<ModuleType> {
    if Is(a.intention, "comprendre") then
      if Is(a.style, "exemples") then [Article, Exemple, Video, Exercice]
      else if Is(a.style, "explications") then [Article, Resume, Video, Exercice]
      else if Is(a.style, "videos") then [Video, Article, Exemple, Exercice]
      else [Article, Exercice, Video, Exemple]
    else if Is(a.intention, "voir") then
      if Is(a.style, "pratique") then [Video, Exercice, Resume, Exemple]
      else [Video, Resume, Exemple, Exercice]
    else if Is(a.intention, "pratiquer") then
      if Is(a.style, "explications") then [Exercice, Resume, Article, Video]
      else [Exercice, Article, Video, Exemple]
    else if Is(a.level, "debutant") then [Video, Article, Exemple, Exercice]
    else if Is(a.level, "intermediaire") then [Article, Video, Exercice, Exemple]
    else [Exercice, Exemple, Article, Video]
  }

  predicate NoRepeats(ks: seq<ModuleType>) {
    forall i, j :: 0 <= i < j < |ks| ==> ks[i] != ks[j]
  }

  /** `journey.filter(m => m.type !== 'resume')`: a lone summary is dropped,
      any other lone module kept, and `WithoutResumeKeepsOrder` shows that the
      filter works piecewise, so the kept modules stay in their order. */
  function WithoutResume(ks: seq<ModuleType>): (r: seq<ModuleType>)
    ensures multiset(r) == multiset(ks)[Resume := 0]
    ensures |ks| == 1 ==> (r == [] <==> ks[0] == Resume) && (ks[0] != Resume ==> r == ks)
  {
    if |ks| == 0 then []
    else
      assert ks == [ks[0]] + ks[1..];
      (if ks[0] == Resume then [] else [ks[0]]) + WithoutResume(ks[1..])
  }

  /** Filtering a concatenation filters each part in place: together with
      the lone-module cases this fixes the filter's output, order included. */
  lemma {:induction false} WithoutResumeKeepsOrder(a: seq<ModuleType>, b: seq<ModuleType>)
    ensures WithoutResume(a + b) == WithoutResume(a) + WithoutResume(b)
    decreases |a|
  {
    if |a| > 0 {
      assert (a + b)[1..] == a[1..] + b;
      WithoutResumeKeepsOrder(a[1..], b);
    } else {
      assert a + b == b;
    }
  }

  /** Filtering out summaries drops exactly the summaries. */
  lemma {:induction false} WithoutResumeLength(ks: seq<ModuleType>)
    ensures |WithoutResume(ks)| + multiset(ks)[Resume] == |ks|
  {
    if |ks| > 0 {
      assert ks == [ks[0]] + ks[1..];
      WithoutResumeLength(ks[1..]);
    }
  }

  /** Filtering out summaries keeps the other modules distinct. */
  lemma {:induction false} WithoutResumeKeepsNoRepeats(ks: seq<ModuleType>)
    requires NoRepeats(ks)
    ensures NoRepeats(WithoutResume(ks))
  {
    if |ks| > 0 {
      assert NoRepeats(ks[1..]);
      WithoutResumeKeepsNoRepeats(ks[1..]);
      var rest := WithoutResume(ks[1..]);
      assert ks == [ks[0]] + ks[1..];
      assert ks[0] !in multiset(ks[1..]);
      forall j | 0 <= j < |rest| ensures rest[j] != ks[0] {
        assert rest[j] in multiset(rest);
      }
    }
  }

  /** Without a summary there is nothing to filter out. */
  lemma {:induction false} WithoutResumeIdle(ks: seq<ModuleType>)
    requires Resume !in ks
    ensures WithoutResume(ks) == ks
  {
    if |ks| > 0 {
      assert ks == [ks[0]] + ks[1..];
      WithoutResumeIdle(ks[1..]);
    }
  }

  /** Step 2: beginners lose every summary; advanced learners get an
      exercise appended when none is there. */
  function AdjustForLevel(ks: seq<ModuleType>, level: Option<string>): (r: seq<ModuleType>)
    ensures Is(level, "debutant") ==> Resume !in r && r == WithoutResume(ks)
    ensures Is(level, "avance") ==> Exercice in r
    ensures Is(level, "avance") && Exercice !in ks ==> r == ks + [Exercice]
    ensures !Is(level, "debutant") && !(Is(level, "avance") && Exercice !in ks) ==> r == ks
  {
    if Is(level, "debutant") then
      var r := WithoutResume(ks);
      assert Resume !in multiset(r);
      r
    else if Is(level, "avance") && Exercice !in ks then ks + [Exercice]
    else ks
  }

  /** `journey.splice(1, 0, m)`: insert at index 1 (at 0 when empty). */
  function InsertSecond(ks: seq<ModuleType>, k: ModuleType): (r: seq<ModuleType>)
    ensures multiset(r) == multiset(ks) + multiset{k}
    ensures |r| == |ks| + 1
    ensures |ks| == 0 ==> r == [k]
    ensures |ks| > 0 ==> r[0] == ks[0] && r[1] == k && r[2..] == ks[1..]
  {
    if |ks| == 0 then [k]
    else
      assert ks == ks[..1] + ks[1..];
      ks[..1] + [k] + ks[1..]
  }

  /** The module type a learning style asks for, if any. */
  function StyleModule(style: Option<string>): Option<ModuleType> {
    if Is(style, "exemples") then Some(Exemple)
    else if Is(style, "videos") then Some(Video)
    else if Is(style, "pratique") then Some(Exercice)
    else None
  }

  /** Step 3: the style guarantees its module type, which is added only when
      absent: an example goes second, a video or an exercise first; nothing
      else changes in the counts of types. */
  function TopUpForStyle(ks: seq<ModuleType>, style: Option<string>): (r: seq<ModuleType>)
    ensures StyleModule(style).Some? ==> StyleModule(style).value in r
    ensures StyleModule(style).None? || StyleModule(style).value in ks ==> r == ks
    ensures Is(style, "exemples") && Exemple !in ks ==> r == InsertSecond(ks, Exemple)
    ensures Is(style, "videos") && Video !in ks ==> r == [Video] + ks
    ensures Is(style, "pratique") && Exercice !in ks ==> r == [Exercice] + ks
    ensures forall k :: || multiset(r)[k] == multiset(ks)[k]
                        || (StyleModule(style) == Some(k) && multiset(ks)[k] == 0 && multiset(r)[k] == 1)
  {
    var r1 := if Is(style, "exemples") && Exemple !in ks then InsertSecond(ks, Exemple) else ks;
    var r2 := if Is(style, "videos") && Video !in r1 then [Video] + r1 else r1;
    var r3 := if Is(style, "pratique") && Exercice !in r2 then [Exercice] + r2 else r2;
    assert Exemple in r1 ==> Exemple in multiset(r1);
    r3
  }

  /** Steps 1 to 3 as module types. */
  function ModuleTypes(a: Answers): seq<ModuleType> {
    TopUpForStyle(AdjustForLevel(BaseSequence(a), a.level), a.style)
  }

  // ---------------------------------------------------------------------
  // Pacing and description
  // ---------------------------------------------------------------------

  /** `rythme || 'auto'`: only a missing or empty answer becomes `auto`. */
  function RythmeKey(rythme: Option<string>): string {
    match rythme
    case None => "auto"
    case Some(s) => if s == "" then "auto" else s
  }

  /** `rhythmConfig[key]`: one of three presets, or nothing for any other key. */
  function PacingFor(key: string): (p: Option<Pacing>)
    ensures p.Some? <==> key in {"doucement", "rapidement", "auto"}
  {
    if key == "doucement" then Some(Pacing(8, 2000, true))
    else if key == "rapidement" then Some(Pacing(4, 800, false))
    else if key == "auto" then Some(Pacing(6, 1200, true))
    else None
  }

  /** A template literal prints a missing answer as `undefined`. */
  function Render(answer: Option<string>): string {
    match answer
    case None => "undefined"
    case Some(s) => s
  }

  const DescriptionHead: string := "Parcours personnalisé pour niveau "
  const IntentionLead: string := ", intention \""
  const RythmeLead: string := "\", rythme "
  const StyleLead: string := ", style "

  /** `getJourneyDescription`: the four answers in a fixed template. */
  function Description(a: Answers): (d: string)
    ensures var p1 := |DescriptionHead| + |Render(a.level)|;
            var p2 := p1 + |IntentionLead| + |Render(a.intention)|;
            var p3 := p2 + |RythmeLead| + |Render(a.rythme)|;
            && |d| == p3 + |StyleLead| + |Render(a.style)|
            && d[..|DescriptionHead|] == DescriptionHead
            && d[|DescriptionHead|..p1] == Render(a.level)
            && d[p1..p1 + |IntentionLead|] == IntentionLead
            && d[p1 + |IntentionLead|..p2] == Render(a.intention)
            && d[p2..p2 + |RythmeLead|] == RythmeLead
            && d[p2 + |RythmeLead|..p3] == Render(a.rythme)
            && d[p3..p3 + |StyleLead|] == StyleLead
            && d[p3 + |StyleLead|..] == Render(a.style)
  {
    DescriptionHead + Render(a.level) + IntentionLead + Render(a.intention)
    + RythmeLead + Render(a.rythme) + StyleLead + Render(a.style)
  }

  // ---------------------------------------------------------------------
  // The generator
  // ---------------------------------------------------------------------

  function Catalogued(ks: seq<ModuleType>): (ms: seq<Module>)
    ensures |ms| == |ks| && forall i :: 0 <= i < |ks| ==> ms[i] == ModuleOf(ks[i])
  {
    seq(|ks|, i requires 0 <= i < |ks| => ModuleOf(ks[i]))
  }

  function Kinds(ms: seq<Module>): (ks: seq<ModuleType>)
    ensures |ks| == |ms| && forall i :: 0 <= i < |ms| ==> ks[i] == ms[i].kind
  {
    seq(|ms|, i requires 0 <= i < |ms| => ms[i].kind)
  }

  /** `generateJourney`. */
  function GenerateJourney(a: Answers): (j: Journey)
    ensures Kinds(j.modules) == ModuleTypes(a)
    ensures forall i :: 0 <= i < |j.modules| ==> j.modules[i] == ModuleOf(j.modules[i].kind)
    ensures j.config.level == a.level && j.config.intention == a.intention
    ensures j.config.rythme == a.rythme && j.config.style == a.style
    ensures j.config.pacing == PacingFor(RythmeKey(a.rythme))
    ensures j.description == Description(a)
  {
    var ks := ModuleTypes(a);
    var ms := Catalogued(ks);
    assert Kinds(ms) == ks;
    Journey(ms, JourneyConfig(a.level, a.intention, a.rythme, a.style, PacingFor(RythmeKey(a.rythme))),
            Description(a))
  }

  // ---------------------------------------------------------------------
  // Properties
  // ---------------------------------------------------------------------

  /** Four distinct types with an exercise and a video. */
  predicate FourDistinctWithExerciseAndVideo(b: seq<ModuleType>) {
    && |b| == 4
    && b[0] != b[1] && b[0] != b[2] && b[0] != b[3] && b[1] != b[2] && b[1] != b[3] && b[2] != b[3]
    && Exercice in b && Video in b
  }

  lemma FourDistinctFacts(b: seq<ModuleType>)
    requires FourDistinctWithExerciseAndVideo(b)
    ensures NoRepeats(b)
    ensures multiset(b)[Resume] == (if Resume in b then 1 else 0)
  {
    assert b == [b[0]] + [b[1]] + [b[2]] + [b[3]];
    assert multiset(b) == multiset{b[0]} + multiset{b[1]} + multiset{b[2]} + multiset{b[3]};
  }

  /** Every base sequence is four distinct types, holding an exercise and a
      video, and an example whenever the style asks for examples. */
  lemma BaseSequenceShape(a: Answers)
    ensures var b := BaseSequence(a);
            && |b| == 4 && NoRepeats(b) && Exercice in b && Video in b
            && multiset(b)[Resume] == (if Resume in b then 1 else 0)
            && (Is(a.style, "exemples") ==> Exemple in b)
  {
    var b := BaseSequence(a);
    assert FourDistinctWithExerciseAndVideo(b);
    FourDistinctFacts(b);
  }

  /** The level and style guarantees of a generated journey: no summary for
      a beginner, an exercise for an advanced learner, and the style's own
      module type. */
  lemma LevelAndStyleGuarantees(a: Answers)
    ensures var ks := Kinds(GenerateJourney(a).modules);
            && (Is(a.level, "debutant") ==> Resume !in ks)
            && (Is(a.level, "avance") ==> Exercice in ks)
            && (Is(a.style, "exemples") ==> Exemple in ks)
            && (Is(a.style, "videos") ==> Video in ks)
            && (Is(a.style, "pratique") ==> Exercice in ks)
  {
    var adjusted := AdjustForLevel(BaseSequence(a), a.level);
    var ks := ModuleTypes(a);
    assert multiset(ks)[Resume] == multiset(adjusted)[Resume];
    assert multiset(adjusted)[Exercice] <= multiset(ks)[Exercice];
    if Is(a.level, "debutant") {
      assert Resume !in multiset(adjusted);
    }
    if Is(a.level, "avance") {
      assert Exercice in multiset(adjusted);
    }
  }

  /** When the module types the style asks for are already there, the
      top-up adds nothing. */
  lemma TopUpIdle(ks: seq<ModuleType>, style: Option<string>)
    requires Exercice in ks && Video in ks
    requires Is(style, "exemples") ==> Exemple in ks
    ensures TopUpForStyle(ks, style) == ks
  {
  }

  /** Since every base already holds an exercise and a video, the shape of a
      journey is fixed: three or four distinct modules with both, and three
      exactly when a beginner's base held a summary. */
  lemma JourneyShape(a: Answers)
    ensures var ks := ModuleTypes(a);
            && (|ks| == 3 || |ks| == 4)
            && NoRepeats(ks)
            && Exercice in ks && Video in ks
            && (|ks| == 3 <==> Is(a.level, "debutant") && Resume in BaseSequence(a))
  {
    var b := BaseSequence(a);
    BaseSequenceShape(a);
    var adjusted := AdjustForLevel(b, a.level);
    if Is(a.level, "debutant") {
      WithoutResumeLength(b);
      WithoutResumeKeepsNoRepeats(b);
      assert Exercice in multiset(b) && Video in multiset(b);
      assert Exercice in multiset(adjusted) && Video in multiset(adjusted);
      assert Is(a.style, "exemples") ==> Exemple in multiset(adjusted);
    }
    TopUpIdle(adjusted, a.style);
  }

  /** Outside the beginner level the journey is exactly the base sequence,
      in its order: an advanced learner already has an exercise and every
      style's module type is already there. */
  lemma NonBeginnerGetsBase(a: Answers)
    requires !Is(a.level, "debutant")
    ensures ModuleTypes(a) == BaseSequence(a)
  {
    BaseSequenceShape(a);
    TopUpIdle(BaseSequence(a), a.style);
  }

  /** A beginner's journey is the base sequence with its summary filtered
      out, the other modules in their base order. */
  lemma BeginnerGetsFilteredBase(a: Answers)
    requires Is(a.level, "debutant")
    ensures ModuleTypes(a) == WithoutResume(BaseSequence(a))
  {
    var b := BaseSequence(a);
    BaseSequenceShape(a);
    var adjusted := WithoutResume(b);
    assert Exercice in multiset(b) && Video in multiset(b);
    assert Exercice in multiset(adjusted) && Video in multiset(adjusted);
    assert Is(a.style, "exemples") ==> Exemple in multiset(adjusted);
    TopUpIdle(adjusted, a.style);
  }

  /** The pacing presets, and the fallback for missing or empty answers only. */
  lemma PacingTable(a: Answers)
    ensures Is(a.rythme, "doucement") ==> GenerateJourney(a).config.pacing == Some(Pacing(8, 2000, true))
    ensures Is(a.rythme, "rapidement") ==> GenerateJourney(a).config.pacing == Some(Pacing(4, 800, false))
    ensures a.rythme in {None, Some(""), Some("auto")} ==> GenerateJourney(a).config.pacing == Some(Pacing(6, 1200, true))
    ensures a.rythme !in {None, Some(""), Some("auto"), Some("doucement"), Some("rapidement")} ==>
              GenerateJourney(a).config.pacing == None
  {
  }

  function BeginnerAnswers(): Answers {
    Answers(Some("debutant"), Some("comprendre"), Some("doucement"), Some("exemples"))
  }

  lemma BeginnerModuleTypes()
    ensures ModuleTypes(BeginnerAnswers()) == [Article, Exemple, Video, Exercice]
  {
    var a := BeginnerAnswers();
    var b := BaseSequence(a);
    assert b == [Article, Exemple, Video, Exercice];
    WithoutResumeIdle(b);
    assert AdjustForLevel(b, a.level) == b;
    TopUpIdle(b, a.style);
  }

  /** A worked case: a beginner who wants to understand, slowly, through
      examples, gets article, example, video, exercise and the slow preset. */
  lemma BeginnerUnderstandingByExamples()
    ensures var j := GenerateJourney(BeginnerAnswers());
            && Kinds(j.modules) == [Article, Exemple, Video, Exercice]
            && Resume !in Kinds(j.modules)
            && j.config.pacing == Some(Pacing(8, 2000, true))
  {
    BeginnerModuleTypes();
  }
}

=== FILE: navigation.dfy ===
/** The navigation scoring engine (`calculateNavigationOrder`,
    `getRecommendationReason`, `shouldShowItem`): an additive score per
    navigation item from the behaviour record, a stable descending ranking,
    and at most two recommendations with a reason each. */
module Navigation {
  import opened Options
  import opened Dict
  import opened Cascade
  import opened StableSort
  import opened UserTracking

  /** A navigation option. `name` is the item's `label` field and `kind` its
      `type` field; `kind` and `complexity` are free strings, as any value
      may be passed in. */
  datatype NavItem = NavItem(id: string, name: string, description: string, color: string,
                             kind: string, complexity: string, recommended: bool)

  datatype Priority = High | Medium | Low

  /** `{ ...item, relevanceScore, priority }`. */
  datatype ScoredItem = ScoredItem(item: NavItem, relevanceScore: int, priority: Priority)

  /** The eight reasons a recommendation can carry, in cascade order. */
  datatype ReasonKind =
    | FromPreferences | StartHere | FitsCurrentGoal | NewToDiscover
    | GoodToExplore | DeepenKnowledge | PutIntoPractice | RecommendedForYou

  datatype Recommendation = Recommendation(id: string, name: string, reason: ReasonKind)

  datatype NavigationResult = NavigationResult(orderedItems: seq<ScoredItem>,
                                               recommendations: seq<Recommendation>,
                                               mentalState: MentalState)

  /** The text the interface shows for each reason. */
  function ReasonText(r: ReasonKind): string {
    match r
    case FromPreferences => "Basé sur vos préférences"
    case StartHere => "Commencez par ici pour débuter"
    case FitsCurrentGoal => "Parfait pour votre objectif actuel"
    case NewToDiscover => "Nouveau contenu à découvrir"
    case GoodToExplore => "Idéal pour explorer"
    case DeepenKnowledge => "Approfondissez vos connaissances"
    case PutIntoPractice => "Mettez en pratique"
    case RecommendedForYou => "Recommandé pour vous"
  }

  // ---------------------------------------------------------------------
  // Score
  // ---------------------------------------------------------------------

  /** Rule 1: ten points per recorded click on the item. */
  function PreferenceBonus(item: NavItem, u: UserState): int {
    10 * Get(u.preferences, item.id)
  }

  /** Rule 2: a long hover (over two seconds in total) shows curiosity. */
  function HoverBonus(item: NavItem, u: UserState): int {
    if Get(u.hoverTimes, item.id) > 2000 then 5 else 0
  }

  /** Rule 3: what suits the current mental state. */
  function MentalStateBonus(item: NavItem, u: UserState): int {
    match u.mentalState
    case Hesitant =>
      (if item.complexity == "simple" || item.kind == "discover" then 15 else 0)
      + (if item.recommended then 10 else 0)
    case Focused => if item.kind == "action" || item.kind == "learn" then 15 else 0
    case Confident => if item.complexity == "advanced" || item.kind == "practice" then 15 else 0
    case Exploratory => 5
  }

  /** Rule 4: after thirty seconds, a discovery item never clicked. */
  function FreshnessBonus(item: NavItem, u: UserState): int {
    if u.timeSpent > 30 && Get(u.preferences, item.id) == 0 && item.kind == "discover" then 8 else 0
  }

  /** Rule 5: strong hesitation favours recommended and discovery items. */
  function HesitationBonus(item: NavItem, u: UserState): int {
    if u.hesitationLevel >= 2 && (item.recommended || item.kind == "discover") then 12 else 0
  }

  /** Rule 6: the natural next step after the last click. */
  function SequenceBonus(item: NavItem, clickPatterns: seq<string>): int {
    if |clickPatterns| == 0 then 0
    else
      var last := clickPatterns[|clickPatterns| - 1];
      (if last == "decouvrir" && item.id == "apprendre" then 10 else 0)
      + (if last == "apprendre" && item.id == "exercer" then 10 else 0)
  }

  /** Rule 7: items flagged as recommended in the catalog. */
  function RecommendedBonus(item: NavItem): int {
    if item.recommended then 8 else 0
  }

  /** Rule 8: a recently clicked item loses three points, for variety. */
  function RepeatPenalty(item: NavItem, clickPatterns: seq<string>): int {
    if item.id in clickPatterns then 3 else 0
  }

  /** The relevance score: the sum of the eight rules. Apart from the
      preference term it lies between -3 and 68. */
  function Score(item: NavItem, u: UserState): (score: int)
    ensures PreferenceBonus(item, u) - 3 <= score <= PreferenceBonus(item, u) + 68
  {
    PreferenceBonus(item, u)
    + HoverBonus(item, u)
    + MentalStateBonus(item, u)
    + FreshnessBonus(item, u)
    + HesitationBonus(item, u)
    + SequenceBonus(item, u.clickPatterns)
    + RecommendedBonus(item)
    - RepeatPenalty(item, u.clickPatterns)
  }

  /** The priority band of a score. */
  function PriorityOf(score: int): (p: Priority)
    ensures p == High <==> score >= 20
    ensures p == Medium <==> 10 <= score < 20
    ensures p == Low <==> score < 10
  {
    if score >= 20 then High else if score >= 10 then Medium else Low
  }

  function ScoreItem(item: NavItem, u: UserState): ScoredItem {
    var score := Score(item, u);
    ScoredItem(item, score, PriorityOf(score))
  }

  function ScoreOf(s: ScoredItem): int {
    s.relevanceScore
  }

  function IdOf(s: ScoredItem): string {
    s.item.id
  }

  /** `items.map(...)`: each item with its score and band, in input order. */
  function ScoreAll(items: seq<NavItem>, u: UserState): (scored: seq<ScoredItem>)
    ensures |scored| == |items|
    ensures forall i :: 0 <= i < |items| ==> scored[i] == ScoreItem(items[i], u)
  {
    seq(|items|, i requires 0 <= i < |items| => ScoreItem(items[i], u))
  }

  // ---------------------------------------------------------------------
  // Recommendations
  // ---------------------------------------------------------------------

  /** `getRecommendationReason`: the first matching case wins. */
  function Reason(item: NavItem, u: UserState): ReasonKind {
    if Get(u.preferences, item.id) != 0 then FromPreferences
    else if u.mentalState == Hesitant then StartHere
    else if u.mentalState == Focused then FitsCurrentGoal
    else if u.timeSpent > 30 && Get(u.preferences, item.id) == 0 then NewToDiscover
    else if item.kind == "discover" then GoodToExplore
    else if item.kind == "learn" then DeepenKnowledge
    else if item.kind == "practice" then PutIntoPractice
    else RecommendedForYou
  }

  datatype ReasonInput = ReasonInput(item: NavItem, user: UserState)

  /** The reason cascade as a table of rules in priority order. */
  function ReasonRules(): seq<Rule<ReasonInput, ReasonKind>> {
    [ Rule((c: ReasonInput) => Get(c.user.preferences, c.item.id) != 0, FromPreferences),
      Rule((c: ReasonInput) => c.user.mentalState == Hesitant, StartHere),
      Rule((c: ReasonInput) => c.user.mentalState == Focused, FitsCurrentGoal),
      Rule((c: ReasonInput) => c.user.timeSpent > 30 && Get(c.user.preferences, c.item.id) == 0, NewToDiscover),
      Rule((c: ReasonInput) => c.item.kind == "discover", GoodToExplore),
      Rule((c: ReasonInput) => c.item.kind == "learn", DeepenKnowledge),
      Rule((c: ReasonInput) => c.item.kind == "practice", PutIntoPractice) ]
  }

  /** The `if` chain and the rule table give the same reason for every item
      and every behaviour record. */
  lemma ReasonIsFirstMatch(item: NavItem, u: UserState)
    ensures Reason(item, u) == FirstMatch(ReasonRules(), ReasonInput(item, u), RecommendedForYou)
  {
    var rules := ReasonRules();
    var c := ReasonInput(item, u);
    assert rules[0..] == rules;
    FirstMatchFrom(rules, 0, c, RecommendedForYou);
    FirstMatchFrom(rules, 1, c, RecommendedForYou);
    FirstMatchFrom(rules, 2, c, RecommendedForYou);
    FirstMatchFrom(rules, 3, c, RecommendedForYou);
    FirstMatchFrom(rules, 4, c, RecommendedForYou);
    FirstMatchFrom(rules, 5, c, RecommendedForYou);
    FirstMatchFrom(rules, 6, c, RecommendedForYou);
    assert rules[7..] == [];
  }

  /** `.filter(item => item.relevanceScore >= 15)`. */
  function Qualifying(ranked: seq<ScoredItem>): (q: seq<ScoredItem>)
    ensures |q| <= |ranked|
    ensures forall i :: 0 <= i < |q| ==> q[i].relevanceScore >= 15
    ensures SortedDesc(ranked, ScoreOf) ==>
              q == ranked[..|q|] && (|q| < |ranked| ==> ranked[|q|].relevanceScore < 15)
  {
    if |ranked| == 0 then []
    else if ranked[0].relevanceScore >= 15 then
      var rest := Qualifying(ranked[1..]);
      assert SortedDesc(ranked, ScoreOf) ==> SortedDesc(ranked[1..], ScoreOf);
      [ranked[0]] + rest
    else
      var rest := Qualifying(ranked[1..]);
      assert SortedDesc(ranked, ScoreOf) ==> SortedDesc(ranked[1..], ScoreOf);
      rest
  }

  /** `.slice(0, 2).map(...)`: the first two qualifying items, each with
      its reason. */
  function Recommend(ranked: seq<ScoredItem>, u: UserState): (recs: seq<Recommendation>)
    ensures |recs| <= 2 && |recs| <= |ranked|
    ensures var q := Qualifying(ranked);
            && |recs| == (if |q| < 2 then |q| else 2)
            && forall i :: 0 <= i < |recs| ==>
                 recs[i] == Recommendation(q[i].item.id, q[i].item.name, Reason(q[i].item, u))
  {
    var q := Qualifying(ranked);
    var top := if |q| < 2 then q else q[..2];
    seq(|top|, i requires 0 <= i < |top| =>
      Recommendation(top[i].item.id, top[i].item.name, Reason(top[i].item, u)))
  }

  /** `calculateNavigationOrder`. */
  function CalculateNavigationOrder(items: seq<NavItem>, u: UserState): (r: NavigationResult)
    // the ranking is a permutation of the scored input ...
    ensures multiset(r.orderedItems) == multiset(ScoreAll(items, u))
    ensures |r.orderedItems| == |items|
    ensures forall i :: 0 <= i < |r.orderedItems| ==> r.orderedItems[i] == ScoreItem(r.orderedItems[i].item, u)
    // ... in non-increasing score order ...
    ensures SortedDesc(r.orderedItems, ScoreOf)
    // ... where equal scores keep their input order
    ensures forall v :: WithKey(r.orderedItems, ScoreOf, v) == WithKey(ScoreAll(items, u), ScoreOf, v)
    // the recommendations are the leading items scoring at least 15, two at most
    ensures |r.recommendations| <= 2 && |r.recommendations| <= |r.orderedItems|
    ensures forall i :: 0 <= i < |r.recommendations| ==>
              && r.orderedItems[i].relevanceScore >= 15
              && r.recommendations[i] == Recommendation(r.orderedItems[i].item.id, r.orderedItems[i].item.name,
                                                        Reason(r.orderedItems[i].item, u))
    ensures |r.recommendations| < 2 && |r.recommendations| < |items| ==>
              r.orderedItems[|r.recommendations|].relevanceScore < 15
    ensures r.mentalState == u.mentalState
  {
    var scored := ScoreAll(items, u);
    var sorted := SortDesc(scored, ScoreOf);
    RankedItemsAreScored(scored, sorted, u);
    RecommendationsLeadRanking(sorted, u);
    NavigationResult(sorted, Recommend(sorted, u), u.mentalState)
  }

  /** A rearrangement of scored items still holds only scored items. */
  lemma RankedItemsAreScored(scored: seq<ScoredItem>, sorted: seq<ScoredItem>, u: UserState)
    requires forall i :: 0 <= i < |scored| ==> scored[i] == ScoreItem(scored[i].item, u)
    requires multiset(sorted) == multiset(scored)
    ensures forall i :: 0 <= i < |sorted| ==> sorted[i] == ScoreItem(sorted[i].item, u)
  {
    forall i | 0 <= i < |sorted| ensures sorted[i] == ScoreItem(sorted[i].item, u) {
      assert sorted[i] in multiset(scored);
    }
  }

  /** On a ranked list the recommendations are its leading items. */
  lemma RecommendationsLeadRanking(ranked: seq<ScoredItem>, u: UserState)
    requires SortedDesc(ranked, ScoreOf)
    ensures var recs := Recommend(ranked, u);
            && (forall i :: 0 <= i < |recs| ==>
                  && ranked[i].relevanceScore >= 15
                  && recs[i] == Recommendation(ranked[i].item.id, ranked[i].item.name, Reason(ranked[i].item, u)))
            && (|recs| < 2 && |recs| < |ranked| ==> ranked[|recs|].relevanceScore < 15)
  {
  }

  /** `shouldShowItem`: the staged-reveal policy is disabled, every item is shown. */
  function ShouldShowItem(item: ScoredItem, u: UserState, index: nat): (show: bool)
    ensures show
  {
    true
  }

  // ---------------------------------------------------------------------
  // Properties
  // ---------------------------------------------------------------------

  /** No items, no ranking and no recommendation. */
  lemma EmptyCatalog(u: UserState)
    ensures CalculateNavigationOrder([], u).orderedItems == []
    ensures CalculateNavigationOrder([], u).recommendations == []
  {
  }

  /** In a ranking where only the leading item reaches 15, that item is the
      only qualifier. */
  lemma LeaderIsSoleQualifier(ranked: seq<ScoredItem>)
    requires SortedDesc(ranked, ScoreOf)
    requires |ranked| >= 2 && ranked[0].relevanceScore >= 15 > ranked[1].relevanceScore
    ensures Qualifying(ranked) == [ranked[0]]
  {
  }

  /** Such a ranking yields exactly one recommendation, for its leader. */
  lemma LeaderIsSoleRecommendation(ranked: seq<ScoredItem>, u: UserState)
    requires SortedDesc(ranked, ScoreOf)
    requires |ranked| >= 2 && ranked[0].relevanceScore >= 15 > ranked[1].relevanceScore
    ensures Recommend(ranked, u) == [Recommendation(ranked[0].item.id, ranked[0].item.name, Reason(ranked[0].item, u))]
  {
  }

  /** Items whose scores already descend keep their order. */
  lemma ScoredInOrderStays(items: seq<NavItem>, u: UserState)
    requires forall i, j :: 0 <= i < j < |items| ==> Score(items[i], u) >= Score(items[j], u)
    ensures CalculateNavigationOrder(items, u).orderedItems == ScoreAll(items, u)
  {
    var scored := ScoreAll(items, u);
    assert SortedDesc(scored, ScoreOf) by {
      forall i, j | 0 <= i < j < |scored| ensures ScoreOf(scored[i]) >= ScoreOf(scored[j]) {
        assert scored[i] == ScoreItem(items[i], u) && scored[j] == ScoreItem(items[j], u);
      }
    }
    SortDescIdle(scored, ScoreOf);
  }

  /** Items already in descending score order, only the first reaching 15:
      the ranking keeps the input order and that first item is the sole
      recommendation. */
  lemma SoleQualifierIsSoleRecommendation(items: seq<NavItem>, u: UserState)
    requires |items| >= 2
    requires forall i, j :: 0 <= i < j < |items| ==> Score(items[i], u) >= Score(items[j], u)
    requires Score(items[0], u) >= 15 > Score(items[1], u)
    ensures CalculateNavigationOrder(items, u).orderedItems == ScoreAll(items, u)
    ensures CalculateNavigationOrder(items, u).recommendations
              == [Recommendation(items[0].id, items[0].name, Reason(items[0], u))]
  {
    ScoredInOrderStays(items, u);
    var r := CalculateNavigationOrder(items, u);
    assert r.orderedItems[0] == ScoreItem(items[0], u) && r.orderedItems[1] == ScoreItem(items[1], u);
    LeaderIsSoleRecommendation(r.orderedItems, u);
  }

  /** One more click on an item already clicked at least once adds exactly
      ten points to it and changes no other item's score. */
  lemma PreferenceRaisesScoreByTen(u: UserState, id: string, k: int, item: NavItem)
    requires k >= 1 && Get(u.preferences, id) == k
    ensures var u' := u.(preferences := Put(u.preferences, id, k + 1));
            Score(item, u') == Score(item, u) + (if item.id == id then 10 else 0)
  {
  }

  /** From zero clicks the first click is not worth ten points for a
      discovery item after thirty seconds: it also loses the freshness
      bonus, so the score rises by two. */
  lemma FirstPreferenceCanCostFreshness(u: UserState, item: NavItem)
    requires Get(u.preferences, item.id) == 0 && u.timeSpent > 30 && item.kind == "discover"
    ensures var u' := u.(preferences := Put(u.preferences, item.id, 1));
            Score(item, u') == Score(item, u) + 2
  {
  }

  /** An item inside the click window scores three less than with its id
      out of the window, when the last click is the same in both windows. */
  lemma RecentClickCostsThree(u: UserState, item: NavItem, windowWith: seq<string>, windowWithout: seq<string>)
    requires item.id in windowWith && item.id !in windowWithout
    requires |windowWithout| > 0
    requires windowWith[|windowWith| - 1] == windowWithout[|windowWithout| - 1]
    ensures Score(item, u.(clickPatterns := windowWith)) == Score(item, u.(clickPatterns := windowWithout)) - 3
  {
  }

  /** The precedence of the reason cascade: the preference case wins over
      every other, hesitation over focus, and so on down the table. */
  lemma ReasonPrecedence(item: NavItem, u: UserState)
    ensures Get(u.preferences, item.id) != 0 <==> Reason(item, u) == FromPreferences
    ensures Reason(item, u) == StartHere <==> Get(u.preferences, item.id) == 0 && u.mentalState == Hesitant
    ensures Reason(item, u) == FitsCurrentGoal <==> Get(u.preferences, item.id) == 0 && u.mentalState == Focused
    ensures Reason(item, u) == NewToDiscover <==>
              Get(u.preferences, item.id) == 0 && u.mentalState !in {Hesitant, Focused} && u.timeSpent > 30
    ensures Reason(item, u) in {GoodToExplore, DeepenKnowledge, PutIntoPractice, RecommendedForYou} <==>
              Get(u.preferences, item.id) == 0 && u.mentalState !in {Hesitant, Focused} && u.timeSpent <= 30
    ensures Reason(item, u) in {GoodToExplore, DeepenKnowledge, PutIntoPractice, RecommendedForYou} ==>
              && (Reason(item, u) == GoodToExplore <==> item.kind == "discover")
              && (Reason(item, u) == DeepenKnowledge <==> item.kind == "learn")
              && (Reason(item, u) == PutIntoPractice <==> item.kind == "practice")
  {
  }
}

=== FILE: options.dfy ===
/** A value that may be missing: JavaScript's `undefined` for an absent
    field or an optional argument. */
module Options {

  datatype Option<+T> = None | Some(value: T) {

    /** `x ?? default`: the value when present, otherwise `default`. */
    function GetOr(default: T): T {
      match this
      case Some(v) => v
      case None => default
    }
  }
}

=== FILE: scenario.dfy ===
/** A worked scenario over the three-item catalog of the intelligent
    navigation panel: a hesitant newcomer is steered to the discovery item. */
module Scenario {
  import opened Options
  import opened Dict
  import opened UserTracking
  import opened Navigation
  import opened IntelligentNavigation

  // ---------------------------------------------------------------------
  // A worked scenario
  // ---------------------------------------------------------------------

  /** The catalog card the newcomer lingers over: the discovery item,
      whose card reports its hovers to the tracker. */
  const HoveredId: string := "decouvrir"

  /** A newcomer who, three seconds in, has hovered over the discovery card
      for 3.5 seconds and clicked nothing: hesitation level 3, hence
      `Hesitant`. */
  function HesitantUser(): UserState {
    UserState(Hesitant, 3, [], [Entry(HoveredId, 3500)], [], 3, [], None)
  }

  /** The tracker while the card is hovered and `sec` seconds have passed:
      the hover is pending and nothing has been recorded yet. */
  function Waiting(sec: int): Tracker {
    Tracker(UserState(Exploratory, sec, [], [], [], 0, [], None), [Entry(HoveredId, 1)], 0)
  }

  lemma HoverStartsAfterMount()
    ensures HoverStart(Start(0), HoveredId, 1) == Waiting(0)
  {
  }

  lemma TickWhileWaiting(sec: int)
    requires 0 <= sec < 3
    ensures Tick(Waiting(sec), 1000 * (sec + 1)) == Waiting(sec + 1)
  {
    assert ElapsedSeconds(0, 1000 * (sec + 1)) == sec + 1;
  }

  lemma HoverEndsAfterWaiting()
    ensures HoverEnd(Waiting(3), HoveredId, 3501).state == HesitantUser()
  {
    var t := HoverEnd(Waiting(3), HoveredId, 3501);
    assert t.state.hoverTimes == [Entry(HoveredId, 3500)];
  }

  /** The record is one the tracker really reaches: mount at 0, start
      hovering the card at 1 ms, let the one-second interval fire at 1, 2
      and 3 seconds, and leave the card at 3501 ms. Its derived fields agree
      with the classifier. */
  lemma HesitantUserIsReachable()
    ensures Settled(HesitantUser())
    ensures Run(Start(0), [HoverStartOn(HoveredId, 1), TickAt(1000), TickAt(2000), TickAt(3000),
                           HoverEndOn(HoveredId, 3501)]).state == HesitantUser()
  {
    var events := [HoverStartOn(HoveredId, 1), TickAt(1000), TickAt(2000), TickAt(3000),
                   HoverEndOn(HoveredId, 3501)];
    HoverStartsAfterMount();
    TickWhileWaiting(0);
    TickWhileWaiting(1);
    TickWhileWaiting(2);
    HoverEndsAfterWaiting();
    assert Run(Start(0), events) == Run(Waiting(0), events[1..]);
    assert Run(Waiting(0), events[1..]) == Run(Waiting(1), events[2..]);
    assert Run(Waiting(1), events[2..]) == Run(Waiting(2), events[3..]);
    assert Run(Waiting(2), events[3..]) == Run(Waiting(3), events[4..]);
    assert Run(Waiting(3), events[4..]) == Run(HoverEnd(Waiting(3), HoveredId, 3501), []);
  }

  /** For this user only rules 2, 3 and 5 can fire: a simple discovery item
      collects 15 + 12 points, plus 5 for the long hover if it is the card
      that was hovered. */
  lemma HesitantUserScoresDiscovery(item: NavItem)
    requires item.kind == "discover" && item.complexity == "simple" && !item.recommended
    ensures item.id != HoveredId ==> Score(item, HesitantUser()) == 27
    ensures item.id == HoveredId ==> Score(item, HesitantUser()) == 32
  {
  }

  /** A medium or advanced item of another kind collects nothing but the
      hover bonus, which only the hovered card earns. */
  lemma HesitantUserIgnoresOthers(item: NavItem)
    requires item.kind in {"learn", "practice"} && item.complexity in {"medium", "advanced"} && !item.recommended
    ensures item.id != HoveredId ==> Score(item, HesitantUser()) == 0
    ensures item.id == HoveredId ==> Score(item, HesitantUser()) == 5
  {
  }

  /** A hesitant newcomer who hovered a simple discovery card, facing it
      followed by two harder items of the other kinds: the order is kept and
      only the discovery item is recommended, with the reason for beginners. */
  lemma HesitantUserStartsWithDiscovery(items: seq<NavItem>)
    requires |items| == 3
    requires items[0].kind == "discover" && items[0].complexity == "simple" && !items[0].recommended
    requires forall i :: 1 <= i < 3 ==>
               items[i].kind in {"learn", "practice"} && items[i].complexity in {"medium", "advanced"}
               && !items[i].recommended
    requires items[0].id == HoveredId && items[1].id != HoveredId && items[2].id != HoveredId
    ensures CalculateNavigationOrder(items, HesitantUser()).orderedItems == ScoreAll(items, HesitantUser())
    ensures CalculateNavigationOrder(items, HesitantUser()).recommendations
              == [Recommendation(items[0].id, items[0].name, StartHere)]
  {
    HesitantUserScoresDiscovery(items[0]);
    HesitantUserIgnoresOthers(items[1]);
    HesitantUserIgnoresOthers(items[2]);
    assert forall i, j :: 0 <= i < j < |items| ==> Score(items[i], HesitantUser()) >= Score(items[j], HesitantUser());
    SoleQualifierIsSoleRecommendation(items, HesitantUser());
  }

  /** The panel's own catalog is such a line-up: the discovery item is the
      one recommendation. */
  lemma CatalogStartsWithDiscovery()
    ensures CalculateNavigationOrder(Catalog(), HesitantUser()).recommendations
              == [Recommendation("decouvrir", "Découvrir", StartHere)]
  {
    DiscoveryComesFirst();
    HesitantUserStartsWithDiscovery(Catalog());
  }

  lemma DiscoveryComesFirst()
    ensures |Catalog()| == 3 && Catalog()[0].id == "decouvrir" && Catalog()[0].name == "Découvrir"
  {
  }
}

=== FILE: stable_sort.dfy ===
/** A stable sort in descending order of an integer key, the behaviour of
    `Array.prototype.sort` with the comparator `(a, b) => key(b) - key(a)`
    (the language guarantees that this sort is stable). */
module StableSort {

  predicate SortedDesc<T>(s: seq<T>, key: T -> int) {
    forall i, j :: 0 <= i < j < |s| ==> key(s[i]) >= key(s[j])
  }

  /** The elements whose key is `v`, in their order in `s`. */
  function WithKey<T>(s: seq<T>, key: T -> int, v: int): seq<T> {
    if |s| == 0 then []
    else (if key(s[0]) == v then [s[0]] else []) + WithKey(s[1..], key, v)
  }

  /** No two elements share a tag. */
  predicate DistinctBy<T, U(==)>(s: seq<T>, tag: T -> U) {
    forall i, j :: 0 <= i < j < |s| ==> tag(s[i]) != tag(s[j])
  }

  /** Place `x` before the first element whose key is not larger than its own. */
  function Insert<T>(x: T, s: seq<T>, key: T -> int): seq<T> {
    if |s| == 0 || key(s[0]) <= key(x) then [x] + s
    else [s[0]] + Insert(x, s[1..], key)
  }

  lemma {:induction false} InsertPermutes<T>(x: T, s: seq<T>, key: T -> int)
    ensures multiset(Insert(x, s, key)) == multiset(s) + multiset{x}
    decreases |s|
  {
    var r := Insert(x, s, key);
    if |s| == 0 || key(s[0]) <= key(x) {
      assert r == [x] + s;
    } else {
      InsertPermutes(x, s[1..], key);
      assert r == [s[0]] + Insert(x, s[1..], key);
      assert s == [s[0]] + s[1..];
    }
  }

  lemma {:induction false} InsertKeepsSorted<T>(x: T, s: seq<T>, key: T -> int)
    requires SortedDesc(s, key)
    ensures SortedDesc(Insert(x, s, key), key)
    decreases |s|
  {
    var r := Insert(x, s, key);
    if |s| == 0 || key(s[0]) <= key(x) {
      assert forall i :: 1 <= i < |r| ==> r[i] == s[i - 1];
    } else {
      var t := Insert(x, s[1..], key);
      InsertKeepsSorted(x, s[1..], key);
      InsertPermutes(x, s[1..], key);
      assert forall i :: 1 <= i < |r| ==> r[i] == t[i - 1];
      forall j | 0 < j < |r| ensures key(r[0]) >= key(r[j]) {
        assert r[j] in multiset(t);
        if r[j] != x {
          assert r[j] in multiset(s[1..]);
          var k :| 0 <= k < |s[1..]| && s[1..][k] == r[j];
          assert s[1..][k] == s[k + 1];
        }
      }
    }
  }

  lemma {:induction false} InsertKeepsKeyOrder<T>(x: T, s: seq<T>, key: T -> int, v: int)
    ensures WithKey(Insert(x, s, key), key, v) == (if key(x) == v then [x] else []) + WithKey(s, key, v)
    decreases |s|
  {
    var r := Insert(x, s, key);
    if |s| == 0 || key(s[0]) <= key(x) {
      assert r[1..] == s;
    } else {
      InsertKeepsKeyOrder(x, s[1..], key, v);
      assert r[1..] == Insert(x, s[1..], key);
    }
  }

  /** Insertion sort, inserting each element in front of the sorted rest. */
  function SortDesc<T(==)>(s: seq<T>, key: T -> int): (r: seq<T>)
    ensures SortedDesc(r, key)
    ensures multiset(r) == multiset(s)
    ensures |r| == |s|
    ensures forall v :: WithKey(r, key, v) == WithKey(s, key, v)
    decreases |s|
  {
    if |s| == 0 then []
    else
      var rest := SortDesc(s[1..], key);
      InsertPermutes(s[0], rest, key);
      InsertKeepsSorted(s[0], rest, key);
      forall v ensures WithKey(Insert(s[0], rest, key), key, v) == WithKey(s, key, v) {
        InsertKeepsKeyOrder(s[0], rest, key, v);
      }
      assert s == [s[0]] + s[1..];
      assert multiset(s) == multiset{s[0]} + multiset(s[1..]);
      var r := Insert(s[0], rest, key);
      assert |r| == |multiset(r)| == |multiset(s)| == |s|;
      r
  }

  lemma {:induction false} InsertKeepsDistinct<T, U>(x: T, s: seq<T>, key: T -> int, tag: T -> U)
    requires DistinctBy(s, tag)
    requires forall i :: 0 <= i < |s| ==> tag(s[i]) != tag(x)
    ensures DistinctBy(Insert(x, s, key), tag)
    decreases |s|
  {
    var r := Insert(x, s, key);
    if |s| == 0 || key(s[0]) <= key(x) {
      assert forall i :: 1 <= i < |r| ==> r[i] == s[i - 1];
    } else {
      var t := Insert(x, s[1..], key);
      InsertKeepsDistinct(x, s[1..], key, tag);
      InsertPermutes(x, s[1..], key);
      assert forall i :: 1 <= i < |r| ==> r[i] == t[i - 1];
      forall j | 0 < j < |r| ensures tag(r[0]) != tag(r[j]) {
        assert r[j] in multiset(t);
        if r[j] != x {
          assert r[j] in multiset(s[1..]);
          var k :| 0 <= k < |s[1..]| && s[1..][k] == r[j];
          assert s[1..][k] == s[k + 1];
        }
      }
    }
  }

  /** Sorting never makes two elements share a tag. */
  lemma {:induction false} SortKeepsDistinct<T, U>(s: seq<T>, key: T -> int, tag: T -> U)
    requires DistinctBy(s, tag)
    ensures DistinctBy(SortDesc(s, key), tag)
    decreases |s|
  {
    if |s| > 0 {
      var rest := SortDesc(s[1..], key);
      SortKeepsDistinct(s[1..], key, tag);
      forall i | 0 <= i < |rest| ensures tag(rest[i]) != tag(s[0]) {
        assert rest[i] in multiset(s[1..]);
        var k :| 0 <= k < |s[1..]| && s[1..][k] == rest[i];
        assert s[1..][k] == s[k + 1];
      }
      InsertKeepsDistinct(s[0], rest, key, tag);
    }
  }

  /** A list already in order is left as it is. */
  lemma {:induction false} SortDescIdle<T>(s: seq<T>, key: T -> int)
    requires SortedDesc(s, key)
    ensures SortDesc(s, key) == s
    decreases |s|
  {
    if |s| > 0 {
      SortDescIdle(s[1..], key);
      assert s == [s[0]] + s[1..];
    }
  }
}

=== FILE: user_tracking.dfy ===
/** The behaviour tracker and mental-state classifier of the `useUserState`
    hook, as pure transitions over a tracker record. Every reading of the
    clock becomes an explicit `now` argument (milliseconds). */
module UserTracking {
  import opened Options
  import opened Dict
  import opened Cascade

  datatype MentalState = Exploratory | Focused | Hesitant | Confident

  /** One recorded click. `metadata` holds the extra fields spread into the
      record (`{ type: ... }` from the navigation). */
  datatype Interaction = Interaction(itemId: string, timestamp: int, timeSpent: int,
                                     metadata: map<string, string>)

  /** The hook's state object. `hesitationLevel` and `mentalState` are derived
      from `hoverTimes`, `interactions` and `timeSpent` (see `Settled`). */
  datatype UserState = UserState(
    mentalState: MentalState,
    timeSpent: int,
    interactions: seq<Interaction>,
    hoverTimes: Dict,
    clickPatterns: seq<string>,
    hesitationLevel: int,
    preferences: Dict,
    currentFocus: Option<string>)

  /** The state together with the hook's refs: the pending hover starts and
      the mount instant. */
  datatype Tracker = Tracker(state: UserState, hoverStarts: Dict, startTime: int)

  // ---------------------------------------------------------------------
  // Classifier
  // ---------------------------------------------------------------------

  function HoveredCount(hovered: nat): (n: nat)
    ensures n >= 1 && n >= hovered
    ensures n == hovered || n == 1
  {
    if hovered > 1 then hovered else 1
  }

  /** The hesitation band of an average hover time, as the hook writes it
      with a floating-point division. */
  function BandOfAverage(avg: real): (level: int) {
    if avg > 3000.0 then 3 else if avg > 2000.0 then 2 else if avg > 1000.0 then 1 else 0
  }

  lemma AboveAverage(total: int, n: nat, c: int)
    requires n >= 1
    ensures (total as real) / (n as real) > (c as real) <==> total > c * n
  {
  }

  /** Hesitation level from the total hover time over `hovered` items. The
      average `total / max(hovered, 1)` is compared with 1000, 2000 and 3000
      by cross-multiplication, which picks the same band as the division. */
  function HesitationLevel(totalHover: int, hovered: nat): (level: int)
    ensures 0 <= level <= 3
    ensures level == BandOfAverage((totalHover as real) / (HoveredCount(hovered) as real))
  {
    var n := HoveredCount(hovered);
    AboveAverage(totalHover, n, 3000);
    AboveAverage(totalHover, n, 2000);
    AboveAverage(totalHover, n, 1000);
    if totalHover > 3000 * n then 3
    else if totalHover > 2000 * n then 2
    else if totalHover > 1000 * n then 1
    else 0
  }

  /** The mental-state cascade; the first matching case wins. */
  function MentalStateOf(hesitation: int, interactionCount: nat, timeSpent: int): (m: MentalState)
    ensures hesitation >= 2 ==> m == Hesitant
    ensures m == Focused ==> interactionCount > 3 && timeSpent < 30
    ensures m == Confident ==> interactionCount > 0 && timeSpent < 60
  {
    if hesitation >= 2 then Hesitant
    else if interactionCount > 3 && timeSpent < 30 then Focused
    else if interactionCount == 0 && timeSpent > 10 then Hesitant
    else if interactionCount > 0 && timeSpent < 60 then Confident
    else Exploratory
  }

  datatype Signals = Signals(hesitation: int, interactionCount: nat, timeSpent: int)

  /** The same cascade as an explicit table of rules in priority order. */
  function MentalStateRules(): seq<Rule<Signals, MentalState>> {
    [ Rule((s: Signals) => s.hesitation >= 2, Hesitant),
      Rule((s: Signals) => s.interactionCount > 3 && s.timeSpent < 30, Focused),
      Rule((s: Signals) => s.interactionCount == 0 && s.timeSpent > 10, Hesitant),
      Rule((s: Signals) => s.interactionCount > 0 && s.timeSpent < 60, Confident) ]
  }

  /** The `if`/`else if` chain and the rule table agree on every input. */
  lemma MentalStateIsFirstMatch(hesitation: int, interactionCount: nat, timeSpent: int)
    ensures MentalStateOf(hesitation, interactionCount, timeSpent)
            == FirstMatch(MentalStateRules(), Signals(hesitation, interactionCount, timeSpent), Exploratory)
  {
  }

  /** Hesitation outranks the "no interaction for a while" rule and every
      later one: hesitation 2, no click, 5 seconds gives `Hesitant`. */
  lemma HesitationOutranksActivity()
    ensures MentalStateOf(2, 0, 5) == Hesitant
    ensures MentalStateOf(1, 0, 5) == Exploratory
  {
  }

  datatype Assessment = Assessment(hesitationLevel: int, mentalState: MentalState)

  /** `analyzeMentalState`: reads only the hover table, the number of
      interactions and the elapsed seconds. */
  function Classify(hoverTimes: Dict, interactionCount: nat, timeSpent: int): (a: Assessment)
    ensures 0 <= a.hesitationLevel <= 3
    ensures a.hesitationLevel == BandOfAverage((Total(hoverTimes) as real) / (HoveredCount(|hoverTimes|) as real))
    ensures a.hesitationLevel >= 2 ==> a.mentalState == Hesitant
    ensures a.mentalState
            == FirstMatch(MentalStateRules(), Signals(a.hesitationLevel, interactionCount, timeSpent), Exploratory)
  {
    var level := HesitationLevel(Total(hoverTimes), |hoverTimes|);
    MentalStateIsFirstMatch(level, interactionCount, timeSpent);
    Assessment(level, MentalStateOf(level, interactionCount, timeSpent))
  }

  /** The derived fields agree with the fields they are derived from. */
  predicate Settled(s: UserState) {
    Classify(s.hoverTimes, |s.interactions|, s.timeSpent) == Assessment(s.hesitationLevel, s.mentalState)
  }

  /** The classifier effect: re-derive `hesitationLevel` and `mentalState`,
      leaving every other field alone. */
  function Settle(s: UserState): (r: UserState)
    ensures Settled(r)
    ensures r.(hesitationLevel := s.hesitationLevel, mentalState := s.mentalState) == s
    ensures Settled(s) ==> r == s
  {
    var a := Classify(s.hoverTimes, |s.interactions|, s.timeSpent);
    s.(hesitationLevel := a.hesitationLevel, mentalState := a.mentalState)
  }

  // ---------------------------------------------------------------------
  // Tracker transitions
  // ---------------------------------------------------------------------

  /** The state the hook starts from. */
  function InitialState(): (s: UserState)
    ensures Settled(s)
    ensures s.mentalState == Exploratory && s.hesitationLevel == 0 && s.timeSpent == 0
    ensures s.interactions == [] && s.hoverTimes == [] && s.clickPatterns == [] && s.preferences == []
    ensures s.currentFocus == None
  {
    UserState(Exploratory, 0, [], [], [], 0, [], None)
  }

  /** Mounting the hook at instant `now`. */
  function Start(now: int): (t: Tracker)
    ensures t.state == InitialState() && t.hoverStarts == [] && t.startTime == now
  {
    Tracker(InitialState(), [], now)
  }

  /** `Math.floor((now - start) / 1000)`. */
  function ElapsedSeconds(startTime: int, now: int): (secs: int)
    ensures 1000 * secs <= now - startTime < 1000 * (secs + 1)
  {
    (now - startTime) / 1000
  }

  /** Under a clock that does not run backwards the elapsed seconds never drop. */
  lemma ElapsedMonotone(startTime: int, now: int, later: int)
    requires now <= later
    ensures ElapsedSeconds(startTime, now) <= ElapsedSeconds(startTime, later)
  {
  }

  /** The one-second interval: recompute `timeSpent` and re-classify. */
  function Tick(t: Tracker, now: int): (r: Tracker)
    ensures r.state.timeSpent == ElapsedSeconds(t.startTime, now)
    ensures r.state == Settle(t.state.(timeSpent := r.state.timeSpent))
    ensures r.hoverStarts == t.hoverStarts && r.startTime == t.startTime
  {
    t.(state := Settle(t.state.(timeSpent := ElapsedSeconds(t.startTime, now))))
  }

  /** `trackHoverStart`: stamp the start, replacing any pending stamp for the
      same item. The state object is not touched. */
  function HoverStart(t: Tracker, itemId: string, now: int): (r: Tracker)
    ensures Get(r.hoverStarts, itemId) == now
    ensures forall k :: k != itemId ==> Get(r.hoverStarts, k) == Get(t.hoverStarts, k)
    ensures r.state == t.state && r.startTime == t.startTime
  {
    t.(hoverStarts := Put(t.hoverStarts, itemId, now))
  }

  /** `trackHoverEnd`: when a (truthy) start is pending for the item, add
      the elapsed hover to that item's total, drop the pending start and
      re-classify; otherwise do nothing. */
  function HoverEnd(t: Tracker, itemId: string, now: int): (r: Tracker)
    ensures Get(t.hoverStarts, itemId) == 0 ==> r == t
    ensures Get(t.hoverStarts, itemId) != 0 ==>
      && Get(r.state.hoverTimes, itemId)
         == Get(t.state.hoverTimes, itemId) + (now - Get(t.hoverStarts, itemId))
      && (forall k :: k != itemId ==> Get(r.state.hoverTimes, k) == Get(t.state.hoverTimes, k))
      && (forall k :: Has(r.state.hoverTimes, k) <==> Has(t.state.hoverTimes, k) || k == itemId)
      && |r.state.hoverTimes| == |t.state.hoverTimes| + (if Has(t.state.hoverTimes, itemId) then 0 else 1)
      && !Has(r.hoverStarts, itemId)
      && (forall k :: k != itemId ==> Get(r.hoverStarts, k) == Get(t.hoverStarts, k))
      && r.state == Settle(t.state.(hoverTimes := r.state.hoverTimes))
      && r.startTime == t.startTime
  {
    var start := Get(t.hoverStarts, itemId);
    if start == 0 then t
    else
      var hoverTimes := Put(t.state.hoverTimes, itemId, Get(t.state.hoverTimes, itemId) + (now - start));
      Tracker(Settle(t.state.(hoverTimes := hoverTimes)), Remove(t.hoverStarts, itemId), t.startTime)
  }

  /** `prev.clickPatterns.slice(-4)`: the last four entries, or all when fewer. */
  function LastFour(patterns: seq<string>): (r: seq<string>)
    ensures |r| == if |patterns| < 4 then |patterns| else 4
    ensures r == patterns[|patterns| - |r|..]
  {
    if |patterns| <= 4 then patterns else patterns[|patterns| - 4..]
  }

  /** What one recorded click does, field by field, and that nothing else
      changes: one interaction stamped with the elapsed seconds is appended,
      `itemId` slides into the click window, the item counts one more click
      and no other item's count moves, the item is focused, the hover table,
      the elapsed time and the refs are untouched, and the derived fields
      are re-classified. */
  ghost predicate RecordsClick(t: Tracker, r: Tracker, itemId: string, metadata: map<string, string>, now: int) {
    && r.state.interactions
       == t.state.interactions + [Interaction(itemId, now, t.state.timeSpent, metadata)]
    && 1 <= |r.state.clickPatterns| <= 5
    && r.state.clickPatterns[|r.state.clickPatterns| - 1] == itemId
    && r.state.clickPatterns[..|r.state.clickPatterns| - 1] == LastFour(t.state.clickPatterns)
    && Get(r.state.preferences, itemId) == Get(t.state.preferences, itemId) + 1
    && (forall k :: k != itemId ==> Get(r.state.preferences, k) == Get(t.state.preferences, k))
    && (forall k :: Has(r.state.preferences, k) <==> Has(t.state.preferences, k) || k == itemId)
    && r.state.currentFocus == Some(itemId)
    && r.state.hoverTimes == t.state.hoverTimes && r.state.timeSpent == t.state.timeSpent
    && Settled(r.state)
    && r.hoverStarts == t.hoverStarts && r.startTime == t.startTime
  }

  /** `trackClick`: append one interaction stamped with the current elapsed
      seconds, slide `itemId` into the click window, count one more click
      for the item, focus it, and re-classify. */
  function Click(t: Tracker, itemId: string, metadata: map<string, string>, now: int): (r: Tracker)
    ensures RecordsClick(t, r, itemId, metadata, now)
  {
    var s := t.state;
    var interaction := Interaction(itemId, now, s.timeSpent, metadata);
    var patterns := LastFour(s.clickPatterns) + [itemId];
    assert patterns[..|patterns| - 1] == LastFour(s.clickPatterns);
    t.(state := Settle(s.(interactions := s.interactions + [interaction],
                          clickPatterns := patterns,
                          preferences := Put(s.preferences, itemId, Get(s.preferences, itemId) + 1),
                          currentFocus := Some(itemId))))
  }

  /** `trackView`: focus the item and nothing else. None of the classifier's
      inputs change, so a settled state stays settled. */
  function View(t: Tracker, itemId: string): (r: Tracker)
    ensures r.state.currentFocus == Some(itemId)
    ensures r.state.(currentFocus := t.state.currentFocus) == t.state
    ensures r.hoverStarts == t.hoverStarts && r.startTime == t.startTime
    ensures Settled(t.state) ==> Settled(r.state)
  {
    t.(state := t.state.(currentFocus := Some(itemId)))
  }

  // ---------------------------------------------------------------------
  // Properties across transitions
  // ---------------------------------------------------------------------

  /** Ending a pending hover raises the total hover time by exactly the hover's
      duration (the table never holds a key twice). */
  lemma HoverEndAddsDuration(t: Tracker, itemId: string, now: int)
    requires DistinctKeys(t.state.hoverTimes)
    requires Get(t.hoverStarts, itemId) != 0
    ensures Total(HoverEnd(t, itemId, now).state.hoverTimes)
            == Total(t.state.hoverTimes) + (now - Get(t.hoverStarts, itemId))
  {
    var before := t.state.hoverTimes;
    TotalPut(before, itemId, Get(before, itemId) + (now - Get(t.hoverStarts, itemId)));
  }

  /** The events the hook reacts to, each carrying the clock reading it
      would have taken. */
  datatype Event =
    | TickAt(now: int)
    | HoverStartOn(itemId: string, now: int)
    | HoverEndOn(itemId: string, now: int)
    | ClickOn(itemId: string, metadata: map<string, string>, now: int)
    | ViewOn(itemId: string)

  function Apply(t: Tracker, e: Event): Tracker {
    match e
    case TickAt(now) => Tick(t, now)
    case HoverStartOn(id, now) => HoverStart(t, id, now)
    case HoverEndOn(id, now) => HoverEnd(t, id, now)
    case ClickOn(id, meta, now) => Click(t, id, meta, now)
    case ViewOn(id) => View(t, id)
  }

  /** The events applied one after another, oldest first. */
  function Run(t: Tracker, events: seq<Event>): Tracker
    decreases |events|
  {
    if |events| == 0 then t else Run(Apply(t, events[0]), events[1..])
  }

  /** The invariant of the hook's record: the derived fields agree with the
      rest and no table holds a key twice. */
  predicate Good(t: Tracker) {
    && Settled(t.state)
    && DistinctKeys(t.state.hoverTimes)
    && DistinctKeys(t.state.preferences)
    && DistinctKeys(t.hoverStarts)
  }

  /** Each single event keeps the invariant. */
  lemma ApplyKeepsGood(t: Tracker, e: Event)
    requires Good(t)
    ensures Good(Apply(t, e))
  {
  }

  /** From mounting onwards, whatever events arrive, the record satisfies
      the invariant. */
  lemma {:induction false} RunFromStartIsGood(startTime: int, events: seq<Event>)
    ensures Good(Run(Start(startTime), events))
  {
    RunKeepsGood(Start(startTime), events);
  }

  lemma {:induction false} RunKeepsGood(t: Tracker, events: seq<Event>)
    requires Good(t)
    ensures Good(Run(t, events))
    decreases |events|
  {
    if |events| > 0 {
      ApplyKeepsGood(t, events[0]);
      RunKeepsGood(Apply(t, events[0]), events[1..]);
    }
  }
}
